=== FILE: README.md ===
# zaptecfaktura in Dafny

A model of the computational core of zaptecfaktura, a small web application
that turns the charge history of Zaptec EV-charger installations into a
monthly invoice basis ("fakturagrunnlag") as a PDF, one installation at a time
or for every installation of the account as a zip archive.

The model covers:

- **`format_norwegian_accounting`** (module `Accounting`): the split of an
  amount into its truncated integer part and its rounded hundredths, the
  grouping of the integer digits in threes by single spaces, the comma and the
  hundredths, the sign. The digit loop is modelled both as the loop it
  is (`GroupDigits`) and as a recursive definition (`GroupThousands`), and a
  parser (`ParseAccounting`) serves as the inverse for the round-trip proof.
- **The content of `generate_invoice_pdf`** (module `Invoice`): the title,
  the introductory sentence, the 5 × 6 summary table of line items, and either
  the per-session usage table or the "no sessions" sentence.
- **`make_safe_filename`** (module `SafeName`): forbidden characters replaced
  by `_`, spaces and dots stripped from both ends, inner spaces replaced by `_`.
- **Validation, the history range and the totals** shared by both export
  routes (module `Billing`).
- **The two export routes** (module `Export`): `export_usage` for one
  installation (`ExportOne`) and `export_all_usage` for all of them
  (`ExportAll`, with the loop itself as the method `CollectDocuments`).

Decimal text of integers (`str(n)`, `f"{m:02d}"`) lives in module `Decimal`,
and `Option`/`Result` in module `Wrappers`.

Abstractions:

- Python floats are taken as exact `real` numbers. `int(x)` is `Truncate`
  (toward zero), `round(y)` is `RoundHalfEven` (ties to even).
- Text produced by float formatting (`f"{v:.3f}"`, `f"{v:.2f}"`, `str(v)`) is
  not rendered: a table cell is `Text(s)`, `Fixed(v, places)` or `Repr(v)`.
- `datetime.fromisoformat(t).strftime("%Y-%m-%d %H:%M")` is the parameter
  `reformat: string -> Option<string>`, `None` where parsing raises.
- The Zaptec API is a parameter: `fetch(id, from, to)` returns the charge
  history of an installation, `None` where the request raises. It is a
  function, so it gives one fixed answer for each id and range. The
  installation list is an `Option<seq<Installation>>`, `None` where that
  request raises.

Behaviour of the code as written that the model keeps:

- `make_safe_filename` replaces each of `<>:"/\|?*` by `_`; it does not delete
  them. Different names can therefore clean to the same file name
  (`SafeFilenameCollides`), and the batch then writes two archive entries
  under one name (`DuplicateNamesBothKept`).
- Negative hundredths fall into the `decimal_part < 10` branch, so -42.3
  formats as `-42,0-30` (`FormatExampleNegative`).
- Hundredths that round up to 100 are not carried: 1.996 formats as `1,100`
  (`FormatExampleCentsOverflow`).
- An amount strictly between -1 and 0 gets no leading minus sign: its
  integer part prints as `0`, and negative hundredths still print as `0-NN`,
  so -0.3 formats as `0,0-30` (`SubUnitNegativeLosesSign`).
- The cost is `total_kwh * nok_per_kwh` with no rounding before formatting.
- The archive holds only the per-installation PDFs; there is no summary file.

## Model

| member | source | states |
|---|---|---|
| Decimal.NatToDecimal | src/invoice.py:268 | `str(n)` of a natural number is canonical decimal text whose value is `n` |
| Decimal.CanonicalRoundTrip | src/invoice.py:268 | canonical decimal text is exactly `str` of its value: no other canonical digit string has that value |
| Accounting.GroupDigits | src/invoice.py:270-274 | the right-to-left loop that puts a space before every third digit builds exactly the grouping `GroupThousands` defines |
| Accounting.GroupThousandsShape | src/invoice.py:268-274 | the grouped digits have a space before every group of three counted from the right, and no space at either end |
| Accounting.GroupThousandsRemoveSpaces | src/invoice.py:268-274 | deleting the spaces from the grouped digits gives the digits back unchanged, so deleting the group spaces recovers `str(abs(integer_part))` |
| Accounting.GroupThousandsLength | src/invoice.py:268-274 | grouping n digits adds exactly (n-1)/3 spaces |
| Accounting.Truncate | src/invoice.py:261 | `int(x)` is the integer closest to x on the side of zero |
| Accounting.RoundHalfEven | src/invoice.py:262 | `round(y)` is within one half of y and even on a tie |
| Accounting.SplitAmount | src/invoice.py:259-262 | the integer part is `int(x)`, truncated toward zero; the hundredths lie in [-100, 100] with the sign of the amount, and together they are within half a hundredth of it, so 1.996 splits as 1 and 100 with no carry |
| Accounting.FractionText | src/invoice.py:276-279 | hundredths 0..99 are two digits with that value; 100 prints as "100"; a negative value prints as "0-" and its magnitude |
| Accounting.IntegerText | src/invoice.py:264-274 | the integer text starts with "-" exactly when the integer part is negative |
| Accounting.FormatParts | src/invoice.py:264-286 | the formatted amount starts with "-" exactly when the truncated integer part is negative |
| Accounting.FormatAmount | src/invoice.py:249-286 | the formatted amount is never empty and starts with "-" exactly when the amount is at most -1 |
| Accounting.FormatPartsRoundTrip | src/invoice.py:249-286 | for hundredths in 0..99, reading the formatted text back gives the same integer part and hundredths |
| Accounting.IntegerTextCommaFree | src/invoice.py:264-274 | the integer text holds no comma, so the first comma of a formatted amount is the decimal comma |
| Accounting.IntegerTextInjective | src/invoice.py:264-274 | different integer parts never print alike |
| Accounting.FractionTextInjective | src/invoice.py:276-281 | different hundredths in -100..100 never print alike |
| Accounting.FormatPartsInjective | src/invoice.py:249-286 | two amounts whose hundredths lie in -100..100, the whole range the rounding step yields, are formatted alike exactly when their parts are equal |
| Accounting.CentsOverflowNotCarried | src/invoice.py:276-281 | hundredths of 100 are printed as ",100" after the unchanged integer part |
| Accounting.NegativeCentsPrinted | src/invoice.py:276-281 | negative hundredths are printed as ",0-" and their magnitude |
| Accounting.SubUnitNegativeLosesSign | src/invoice.py:261-266 | an amount strictly between -1 and 0 gets no leading minus sign and starts with "0"; negative hundredths still print after ",0-", as in "0,0-30" |
| Accounting.FormatExampleGrouped | src/invoice.py:249-286 | 1234567.5 formats as "1 234 567,50" |
| Accounting.FormatExampleNegative | src/invoice.py:249-286 | -42.3 formats as "-42,0-30" |
| Accounting.FormatExampleZero | src/invoice.py:249-286 | 0 formats as "0,00" |
| Accounting.FormatExampleCentsOverflow | src/invoice.py:249-286 | 1.996 formats as "1,100" |
| Invoice.DisplayName | src/invoice.py:57-59 | the title shows the installation name when it is present and non-empty, the id otherwise |
| Invoice.BuildInvoice | src/invoice.py:57-238 | the title is "Fakturagrunnlag (name or id)", followed by the sentence naming the period and the price to two places, the summary table, the detail heading and the detail section of the sessions |
| Invoice.LineItems | src/invoice.py:67-107 | the summary table has five rows of six cells and starts with the column header |
| Invoice.UsageLineCells | src/invoice.py:68-77 | the usage line names the period and carries the quantity to three places, the unit price to two, and "0 %" discount and VAT |
| Invoice.TotalRowCaptions | src/invoice.py:78-107 | rows 2, 3 and 4 are captioned "Nettobeløp", "Merverdiavgift" and "Beløp å betale" |
| Invoice.AmountCells | src/invoice.py:67-107 | the usage line, the net amount and the amount payable all show the formatted total cost followed by " kr" |
| Invoice.VatCell | src/invoice.py:88-97 | the VAT line shows "0,00 kr" |
| Invoice.ShownTimes | src/invoice.py:172-180 | "N/A" is never parsed; a start that fails to parse leaves both times raw; an end that fails leaves only the end raw |
| Invoice.SessionRow | src/invoice.py:169-187 | a session row has four cells: the start and end times as `ShownTimes` gives them for the session's times ("N/A" when absent), the device name or "N/A", and the energy or "0" |
| Invoice.MissingTimesShownAsNotAvailable | src/invoice.py:169-174 | a session without start and end times shows "N/A" in both time cells |
| Invoice.SessionRows | src/invoice.py:168-188 | one row per session, in the order of the sessions |
| Invoice.DetailSection | src/invoice.py:159-238 | no sessions give only the "no sessions" sentence; otherwise the table is the header, one row per session in order, and the "Sum kWh" row, `len(sessions) + 2` rows in all |
| SafeName.ReplaceForbidden | src/main.py:176 | every character of `<>:"/\|?*` becomes `_` in place, every other character is kept |
| SafeName.SafeFilename | src/main.py:175-178 | the cleaned name is no longer than the name, holds no forbidden character and no space, and neither starts nor ends with a space or a dot |
| SafeName.SafeFilenameIsCleanedWindow | src/main.py:175-178 | the cleaned name is the run of the name that stripping keeps, character by character, with forbidden characters and spaces turned into `_` |
| SafeName.StrippedWindowUnique | src/main.py:177 | the run that stripping keeps is determined by the name alone |
| SafeName.SafeFilenameIdempotent | src/main.py:175-178 | cleaning a cleaned name changes nothing |
| SafeName.SafeFilenameReplacesForbidden | src/main.py:175-178 | "A/B: C*" cleans to "A_B__C_" |
| SafeName.SafeFilenameStripsEdges | src/main.py:175-178 | " .x. " cleans to "x" |
| SafeName.SafeFilenameCollides | src/main.py:175-178 | "A/B" and "A:B" both clean to "A_B" |
| Billing.ValidateRequest | src/main.py:112-119 | a request passes exactly when the month is in 1..12, the year is at least 2000 and the price is not negative; an invalid date is reported before an invalid price |
| Billing.FromDate | src/main.py:121 | for a valid month the start of the range reads back as the year, a dash, the two-digit month and "-01T00:00:00Z" |
| Billing.ToDate | src/main.py:123-126 | for a valid month the end of the range reads back, in the same form, as the first of the month after it |
| Billing.YearMonthTextUnique | src/main.py:121-126 | the year, month and tail a range end reads back as determine its text, so the contracts of `FromDate` and `ToDate` fix the whole string |
| Billing.NextMonth | src/main.py:123-126 | the month after a month is a valid month exactly one month later |
| Billing.ToDateIsNextFromDate | src/main.py:121-126 | the range ends at the start of the next billing month, December rolling over to January of the next year |
| Billing.RangeMonthsZeroPadded | src/main.py:121-126 | both ends of the range carry the month as two digits naming the month |
| Billing.TotalKwh | src/main.py:141 | the energy total of no sessions is 0 |
| Billing.UsageTotals | src/main.py:141-142 | the totals are the energy total and that total times the price; no sessions cost nothing |
| Billing.TotalKwhNonNegative | src/main.py:141 | energies that are never negative total to a non-negative amount |
| Billing.TotalKwhAppend | src/main.py:141 | the total of two runs of sessions is the sum of their totals |
| Billing.TotalKwhPermutation | src/main.py:141 | the total does not depend on the order of the sessions |
| Billing.CostNonNegative | src/main.py:141-142 | the cost, energy total times price, is never negative when the energies are not negative and the price passed validation |
| Billing.CostAdditive | src/main.py:141-142 | the cost of two runs of sessions is the sum of their costs |
| Export.ExportOne | src/main.py:102-161 | invalid dates and prices are rejected before the history is asked for; a failed history request ends the export; otherwise the document is built from the fetched sessions and their totals |
| Export.DocumentFor | src/main.py:141-159 | the document is titled with the installation's name, or its id when the name is empty; its introductory sentence names the period and the price to two places; its line items come from the energy total of the sessions and its cost at the price, followed by the detail heading and the detail section of the sessions; it is filed under `DocumentFilename` |
| Export.DocumentFilename | src/main.py:159 | for a valid month the file name reads back as the year, "_", the two-digit month and "_grunnlag_", the cleaned name and ".pdf", and holds no forbidden character and no space, whatever the installation is called |
| Export.ArchiveName | src/main.py:256 | for a valid month the archive name reads back as the year, "_", the two-digit month and ".zip", and holds no forbidden character and no space |
| Export.DocumentFilenameCollision | src/main.py:248-251 | two installations of a month share a document name exactly when their names clean to the same text |
| Export.FetchAll | src/main.py:216-227 | every installation's history is asked for over the month's range, in list order |
| Export.FetchedPositions | src/main.py:216-227 | the positions of the installations whose history arrived, increasing, and no others |
| Export.BatchEntries | src/main.py:216-251 | the batch never holds more documents than there are installations |
| Export.BatchEntriesAreFetchedOnes | src/main.py:216-251 | the k-th document belongs to the k-th installation whose history arrived; the number of documents is the number of successful fetches |
| Export.BatchAgreesWithSingleExport | src/main.py:216-251 | each document of the batch equals what the single export gives for that installation |
| Export.BatchEntriesAppend | src/main.py:216-251 | appending installations appends their documents |
| Export.SkippedInstallation | src/main.py:220-227 | an installation whose history request fails leaves no document behind |
| Export.DuplicateNamesBothKept | src/main.py:242-251 | two installations whose names clean alike both reach the archive under the same file name |
| Export.CollectDocuments | src/main.py:216-251 | the loop over the installation list computes exactly the batch's documents in order |
| Export.ExportAll | src/main.py:181-257 | invalid dates and prices are rejected; a failed installation list ends the export; a failed history never does; on success the archive is named `year_mm.zip` and holds the batch's documents |

## Left out

- Rendering through reportlab (page template, styles, column widths, table styles, `doc.build`): foreign library calls; only the strings and cells handed to it are modelled.
- Binary floating point: amounts, energies and prices are exact reals, so float representation error (e.g. in `number - integer_part`) and NaN or infinite prices are not modelled.
- Text of float formatting (`:.2f`, `:.3f`, `str(Energy)`): kept as `Fixed` and `Repr` cells rather than rendered digits.
- `datetime.fromisoformat` and `strftime`: a partial function given as a parameter.
- HTTP, authentication, cookies, the token database, the cache, templates and the Zaptec API client: I/O; their outcomes are parameters (`fetch`, the installation list) and failures are `None`.
- Error pages: a rejected request is a `Failure` carrying the reason, not an HTML response.
- Async/await: the batch awaits each request in turn, so it is modelled as a sequential loop.
- Zip compression and the PDF bytes: the archive is its name and its ordered entries of file name and content.
- The `pdfs` list of `export_all_usage`: it is filled with the same file names and documents as the archive and never read.
- Export.NamedWhenFetched: an installation without a name whose history arrives makes the file-name cleaning raise; the model takes a present name as a precondition, for requests that pass validation and get an installation list, instead of modelling the crash.
- Repeated requests: `fetch` answers the same (id, from, to) the same way every time, so two list entries with the same id cannot have one request fail while the other succeeds, as separate HTTP requests could; no property of the model relies on this.
- Session fields present in the JSON with a `null` value, and an installation without an `Id`: the model treats a field as present with a value or absent.

=== FILE: accounting.dfy ===
/**
 * Norwegian accounting format of an amount: the integer digits grouped in
 * threes by single spaces, a comma, then the hundredths
 * (`format_norwegian_accounting`). The float steps `int(number)` and
 * `round(fraction * 100)` are taken over exact reals.
 */
module Accounting {
  import opened Wrappers
  import opened Decimal

  // ---------------------------------------------------------------------
  // Grouping the integer digits
  // ---------------------------------------------------------------------

  /**
   * The digit loop: walking the digits from the right, a space is put in
   * front of the text built so far before every third digit, then the digit.
   * Read from the left, the first digit is followed by a space exactly when
   * the digits after it are a positive multiple of three.
   */
  function GroupThousands(digits: string): (g: string)
    ensures |digits| == 0 ==> g == []
    ensures |digits| > 0 ==> |g| >= |digits| && g[0] == digits[0]
  {
    if digits == [] then []
    else
      var rest := digits[1..];
      [digits[0]] + (if |rest| > 0 && |rest| % 3 == 0 then " " else "") + GroupThousands(rest)
  }

  /**
   * The loop as written: `enumerate(reversed(digits))`, a space before every
   * digit whose position from the right is a positive multiple of three.
   * After `i` steps the text built is the grouping of the last `i` digits.
   */
  method GroupDigits(digits: string) returns (formatted: string)
    ensures formatted == GroupThousands(digits)
  {
    formatted := "";
    var i := 0;
    while i < |digits|
      invariant 0 <= i <= |digits|
      invariant formatted == GroupThousands(digits[|digits| - i..])
      decreases |digits| - i
    {
      var d := digits[|digits| - 1 - i];
      if i > 0 && i % 3 == 0 {
        formatted := " " + formatted;
      }
      formatted := [d] + formatted;
      assert digits[|digits| - 1 - i..][1..] == digits[|digits| - i..];
      i := i + 1;
    }
    assert digits[0..] == digits;
  }

  /** The text with every space deleted, other characters kept in order. */
  function RemoveSpaces(s: string): (r: string)
    ensures |r| <= |s|
    ensures forall i :: 0 <= i < |r| ==> r[i] != ' '
  {
    if s == [] then [] else (if s[0] == ' ' then [] else [s[0]]) + RemoveSpaces(s[1..])
  }

  /**
   * Spaces stand exactly at every fourth position counted from the right end,
   * so that three characters separate consecutive spaces and the leftmost
   * group has one to three characters.
   */
  predicate SpacedInThrees(g: string) {
    && |g| > 0
    && |g| % 4 != 0
    && forall i :: 0 <= i < |g| ==> (g[i] == ' ' <==> (|g| - i) % 4 == 0)
  }

  /** One space for every full group of three after the leading group. */
  lemma {:induction false} GroupThousandsLength(digits: string)
    requires |digits| > 0
    ensures |GroupThousands(digits)| == |digits| + (|digits| - 1) / 3
    decreases |digits|
  {
    var rest := digits[1..];
    if |rest| > 0 {
      GroupThousandsLength(rest);
      var n := |rest|;
      if n % 3 == 0 {
        assert (n - 1) / 3 + 1 == n / 3;
      } else {
        assert (n - 1) / 3 == n / 3;
      }
    }
  }

  lemma {:induction false} RemoveSpacesAppend(a: string, b: string)
    ensures RemoveSpaces(a + b) == RemoveSpaces(a) + RemoveSpaces(b)
    decreases |a|
  {
    if a != [] {
      assert (a + b)[1..] == a[1..] + b;
      RemoveSpacesAppend(a[1..], b);
    } else {
      assert a + b == b;
    }
  }

  /** Deleting the grouping spaces gives back the digits. */
  lemma {:induction false} GroupThousandsRemoveSpaces(digits: string)
    requires AllDigits(digits)
    ensures RemoveSpaces(GroupThousands(digits)) == digits
    decreases |digits|
  {
    if digits != [] {
      var rest := digits[1..];
      var sep := if |rest| > 0 && |rest| % 3 == 0 then " " else "";
      GroupThousandsRemoveSpaces(rest);
      RemoveSpacesAppend([digits[0]] + sep, GroupThousands(rest));
      RemoveSpacesAppend([digits[0]], sep);
      assert RemoveSpaces([digits[0]]) == [digits[0]];
      assert RemoveSpaces(sep) == [];
      assert digits == [digits[0]] + rest;
    }
  }

  /** A grouped run of n digits has length 3 modulo 4 exactly when n is a multiple of three. */
  lemma GroupedLengthModFour(n: nat)
    requires n > 0
    ensures n % 3 == 0 <==> (n + (n - 1) / 3) % 4 == 3
  {
    var k := (n - 1) / 3;
    var r := (n - 1) % 3;
    assert n - 1 == 3 * k + r;
    assert n + (n - 1) / 3 == 4 * k + r + 1;
  }

  /**
   * Putting a digit in front of a text spaced in threes, with a space between
   * them exactly when the text's leftmost group is full, keeps it spaced in threes.
   */
  lemma PrependDigitKeepsSpacing(d: char, t: string)
    requires d != ' ' && SpacedInThrees(t)
    ensures SpacedInThrees([d] + (if |t| % 4 == 3 then " " else "") + t)
  {
    var prefix := [d] + (if |t| % 4 == 3 then " " else "");
    var g := prefix + t;
    forall i | 0 <= i < |g|
      ensures g[i] == ' ' <==> (|g| - i) % 4 == 0
    {
      if i >= |prefix| {
        assert g[i] == t[i - |prefix|];
        assert |g| - i == |t| - (i - |prefix|);
      }
    }
  }

  /** The grouped digits are spaced in threes from the right, with no space at either end. */
  lemma {:induction false} GroupThousandsShape(digits: string)
    requires |digits| > 0 && AllDigits(digits)
    ensures SpacedInThrees(GroupThousands(digits))
    ensures GroupThousands(digits)[0] != ' '
    ensures GroupThousands(digits)[|GroupThousands(digits)| - 1] != ' '
    decreases |digits|
  {
    var g := GroupThousands(digits);
    var rest := digits[1..];
    assert g[0] == digits[0] && IsDigit(digits[0]);
    if |rest| > 0 {
      GroupThousandsShape(rest);
      var t := GroupThousands(rest);
      GroupThousandsLength(rest);
      GroupedLengthModFour(|rest|);
      PrependDigitKeepsSpacing(digits[0], t);
      assert g == [digits[0]] + (if |t| % 4 == 3 then " " else "") + t;
    }
    assert (|g| - (|g| - 1)) % 4 != 0;
  }

  // ---------------------------------------------------------------------
  // Splitting a number into integer part and hundredths
  // ---------------------------------------------------------------------

  /** The integer part and the rounded hundredths of an amount, as the formatter computes them. */
  datatype AmountParts = AmountParts(whole: int, cents: int)

  /** Python's `int(x)` on a number: truncation toward zero. */
  function Truncate(x: real): (t: int)
    ensures x >= 0.0 ==> 0.0 <= t as real <= x < t as real + 1.0
    ensures x < 0.0 ==> t as real - 1.0 < x <= t as real <= 0.0
  {
    if x >= 0.0 then x.Floor else -((-x).Floor)
  }

  /** Python's `round(y)`: the nearest integer, ties going to the even one. */
  function RoundHalfEven(y: real): (k: int)
    ensures -0.5 <= k as real - y <= 0.5
    ensures k as real - y == 0.5 || y - k as real == 0.5 ==> k % 2 == 0
  {
    var f := y.Floor;
    var rem := y - f as real;
    if rem < 0.5 then f
    else if rem > 0.5 then f + 1
    else if f % 2 == 0 then f
    else f + 1
  }

  /** The first step of `format_norwegian_accounting`: `integer_part = int(number)`, `decimal_part = round((number - integer_part) * 100)`. */
  function SplitAmount(x: real): (p: AmountParts)
    ensures -100 <= p.cents <= 100
    ensures x >= 0.0 ==> p.whole >= 0 && p.cents >= 0
    ensures x <= 0.0 ==> p.whole <= 0 && p.cents <= 0
    ensures p.whole == Truncate(x)
    ensures -0.5 <= (p.whole * 100 + p.cents) as real - x * 100.0 <= 0.5
  {
    var whole := Truncate(x);
    AmountParts(whole, RoundHalfEven((x - whole as real) * 100.0))
  }

  // ---------------------------------------------------------------------
  // The formatter
  // ---------------------------------------------------------------------

  /**
   * The fraction of `format_norwegian_accounting`: the hundredths get a
   * leading "0" whenever they are below ten, which also catches negative
   * hundredths; 100 is printed as is.
   */
  function FractionText(cents: int): (s: string)
    ensures 0 <= cents < 100 ==> |s| == 2 && AllDigits(s) && DecimalValue(s) == cents
    ensures cents == 100 ==> s == "100"
    ensures cents < 0 ==> s == "0-" + NatToDecimal(-cents)
  {
    if cents < 10 then
      assert cents < 0 ==> IntToDecimal(cents) == "-" + NatToDecimal(-cents);
      assert 0 <= cents ==> "0" + IntToDecimal(cents) == ZeroPad2(cents);
      "0" + IntToDecimal(cents)
    else
      assert cents == 100 ==> IntToDecimal(cents) == "100" by {
        if cents == 100 {
          HundredText();
        }
      }
      IntToDecimal(cents)
  }

  lemma HundredText()
    ensures NatToDecimal(100) == "100"
  {
    assert NatToDecimal(1) == "1";
    assert NatToDecimal(10) == "10";
  }

  /** The magnitude of the integer part. */
  function Magnitude(whole: int): nat {
    if whole < 0 then -whole else whole
  }

  /** The integer text of `format_norwegian_accounting`: the sign, kept only when the integer part is negative, and the grouped digits of its magnitude. */
  function IntegerText(whole: int): (s: string)
    ensures |s| > 0 && (s[0] == '-' <==> whole < 0)
  {
    (if whole < 0 then "-" else "") + GroupThousands(NatToDecimal(Magnitude(whole)))
  }

  /** `format_norwegian_accounting` on an amount already split into integer part and hundredths. */
  function FormatParts(p: AmountParts): (s: string)
    ensures |s| > 0 && (s[0] == '-' <==> p.whole < 0)
  {
    IntegerText(p.whole) + "," + FractionText(p.cents)
  }

  /**
   * `format_norwegian_accounting(number)`. The text starts with a minus sign
   * exactly when the amount is at most -1: truncation takes anything above
   * that to an integer part of zero or more.
   */
  function FormatAmount(x: real): (r: string)
    ensures |r| > 0
    ensures r[0] == '-' <==> x <= -1.0
  {
    var p := SplitAmount(x);
    assert p.whole < 0 <==> x <= -1.0;
    FormatParts(p)
  }

  // ---------------------------------------------------------------------
  // Reading a formatted amount back
  // ---------------------------------------------------------------------

  /** Recognises digits spaced in threes, a comma and exactly two digits. */
  function ParseUnsigned(s: string): Option<(nat, nat)> {
    if |s| < 3 || s[|s| - 3] != ',' then None
    else
      var intPart := s[..|s| - 3];
      var digits := RemoveSpaces(intPart);
      var fraction := s[|s| - 2..];
      if !SpacedInThrees(intPart) || !AllDigits(digits) || !AllDigits(fraction) then None
      else Some((DecimalValue(digits), DecimalValue(fraction)))
  }

  /** Reads a formatted amount back: an optional minus sign, then an unsigned amount. */
  function ParseAccounting(s: string): Option<AmountParts> {
    var negative := |s| > 0 && s[0] == '-';
    match ParseUnsigned(if negative then s[1..] else s)
    case None => None
    case Some((magnitude, cents)) =>
      Some(AmountParts(if negative then -(magnitude as int) else magnitude, cents))
  }

  lemma ParseUnsignedOfGrouped(digits: string, fraction: string)
    requires |digits| > 0 && AllDigits(digits)
    requires |fraction| == 2 && AllDigits(fraction)
    ensures ParseUnsigned(GroupThousands(digits) + "," + fraction)
         == Some((DecimalValue(digits), DecimalValue(fraction)))
  {
    var grouped := GroupThousands(digits);
    GroupThousandsShape(digits);
    GroupThousandsRemoveSpaces(digits);
    ParseUnsignedOfSpaced(grouped, fraction);
  }

  /** Any text spaced in threes, a comma and two digits reads as its digits and the two digits. */
  lemma ParseUnsignedOfSpaced(grouped: string, fraction: string)
    requires SpacedInThrees(grouped) && AllDigits(RemoveSpaces(grouped))
    requires |fraction| == 2 && AllDigits(fraction)
    ensures ParseUnsigned(grouped + "," + fraction)
         == Some((DecimalValue(RemoveSpaces(grouped)), DecimalValue(fraction)))
  {
    var s := grouped + "," + fraction;
    assert s[|s| - 3] == ',';
    assert s[..|s| - 3] == grouped;
    assert s[|s| - 2..] == fraction;
  }

  lemma ParseSigned(body: string, magnitude: nat, cents: nat)
    requires |body| > 0 && body[0] != '-'
    requires ParseUnsigned(body) == Some((magnitude, cents))
    ensures ParseAccounting(body) == Some(AmountParts(magnitude, cents))
    ensures ParseAccounting("-" + body) == Some(AmountParts(-(magnitude as int), cents))
  {
    assert ("-" + body)[1..] == body;
  }

  /** The formatted text is the optional sign, then the unsigned text. */
  lemma FormatPartsIsSignedBody(p: AmountParts)
    ensures FormatParts(p) == (if p.whole < 0 then "-" else "")
      + (GroupThousands(NatToDecimal(Magnitude(p.whole))) + "," + FractionText(p.cents))
  {
  }

  /** Whenever the hundredths are a proper two-digit fraction, the formatted text reads back to the same parts. */
  lemma FormatPartsRoundTrip(p: AmountParts)
    requires 0 <= p.cents < 100
    ensures ParseAccounting(FormatParts(p)) == Some(p)
  {
    var magnitude := Magnitude(p.whole);
    var digits := NatToDecimal(magnitude);
    var fraction := FractionText(p.cents);
    var body := GroupThousands(digits) + "," + fraction;
    ParseUnsignedOfGrouped(digits, fraction);
    ParseSigned(body, magnitude, p.cents);
    FormatPartsIsSignedBody(p);
    if p.whole < 0 {
      assert FormatParts(p) == "-" + body;
    } else {
      assert "" + body == body;
      assert FormatParts(p) == body;
    }
  }

  /** No character of the text is a comma. */
  predicate CommaFree(s: string) {
    forall i :: 0 <= i < |s| ==> s[i] != ','
  }

  lemma {:induction false} GroupThousandsCommaFree(digits: string)
    requires CommaFree(digits)
    ensures CommaFree(GroupThousands(digits))
    decreases |digits|
  {
    if digits != [] {
      var rest := digits[1..];
      GroupThousandsCommaFree(rest);
      var sep := if |rest| > 0 && |rest| % 3 == 0 then " " else "";
      var g := GroupThousands(digits);
      assert g == [digits[0]] + sep + GroupThousands(rest);
      forall i | 0 <= i < |g|
        ensures g[i] != ','
      {
        if i > |sep| {
          assert g[i] == GroupThousands(rest)[i - 1 - |sep|];
        }
      }
    }
  }

  /** The integer part holds only a sign, digits and spaces: never the decimal comma. */
  lemma IntegerTextCommaFree(whole: int)
    ensures CommaFree(IntegerText(whole))
  {
    var digits := NatToDecimal(Magnitude(whole));
    assert CommaFree(digits) by {
      forall i | 0 <= i < |digits|
        ensures digits[i] != ','
      {
        assert IsDigit(digits[i]);
      }
    }
    GroupThousandsCommaFree(digits);
    var t := IntegerText(whole);
    if whole < 0 {
      assert t == "-" + GroupThousands(digits);
      forall i | 1 <= i < |t|
        ensures t[i] != ','
      {
        assert t[i] == GroupThousands(digits)[i - 1];
      }
    } else {
      assert t == GroupThousands(digits);
    }
  }

  /** The first comma of the text separates the two parts, so both are recovered. */
  lemma SplitAtComma(a: string, b: string, c: string, d: string)
    requires CommaFree(a) && CommaFree(c)
    requires a + "," + b == c + "," + d
    ensures a == c && b == d
  {
    var s := a + "," + b;
    assert s[|a|] == ',' && s[|c|] == ',';
    assert forall i :: 0 <= i < |a| ==> s[i] == a[i];
    assert forall i :: 0 <= i < |c| ==> s[i] == c[i];
    assert |a| == |c|;
    assert a == s[..|a|] == c;
    assert b == s[|a| + 1..] == d;
  }

  /** Different integer parts never print alike. */
  lemma IntegerTextInjective(w1: int, w2: int)
    requires IntegerText(w1) == IntegerText(w2)
    ensures w1 == w2
  {
    FormatPartsRoundTrip(AmountParts(w1, 0));
    FormatPartsRoundTrip(AmountParts(w2, 0));
    assert FormatParts(AmountParts(w1, 0)) == FormatParts(AmountParts(w2, 0));
  }

  /**
   * Different hundredths in -100..100 never print alike: a negative count
   * has a minus in second place, 100 is the only three-character text
   * without one, and 0..99 read back through their two digits.
   */
  lemma FractionTextInjective(c1: int, c2: int)
    requires -100 <= c1 <= 100 && -100 <= c2 <= 100
    requires FractionText(c1) == FractionText(c2)
    ensures c1 == c2
  {
    var s := FractionText(c1);
    FractionSecondChar(c1);
    FractionSecondChar(c2);
    if c1 < 0 {
      assert NatToDecimal(-c1) == s[2..] == NatToDecimal(-c2);
    } else {
      assert c1 == 100 <==> |s| == 3;
      assert c2 == 100 <==> |s| == 3;
    }
  }

  /** The second character of the hundredths is a minus exactly for a negative count. */
  lemma FractionSecondChar(cents: int)
    requires cents <= 100
    ensures |FractionText(cents)| >= 2
    ensures FractionText(cents)[1] == '-' <==> cents < 0
  {
    var s := FractionText(cents);
    if 0 <= cents < 100 {
      assert IsDigit(s[1]);
    }
  }

  /**
   * Two amounts whose hundredths lie in -100..100, the range the rounding
   * step yields, are formatted alike exactly when their parts are equal.
   */
  lemma FormatPartsInjective(p: AmountParts, q: AmountParts)
    requires -100 <= p.cents <= 100 && -100 <= q.cents <= 100
    ensures FormatParts(p) == FormatParts(q) <==> p == q
  {
    if FormatParts(p) == FormatParts(q) {
      IntegerTextCommaFree(p.whole);
      IntegerTextCommaFree(q.whole);
      SplitAtComma(IntegerText(p.whole), FractionText(p.cents), IntegerText(q.whole), FractionText(q.cents));
      IntegerTextInjective(p.whole, q.whole);
      FractionTextInjective(p.cents, q.cents);
    }
  }

  // ---------------------------------------------------------------------
  // The edge behaviour of the formatter
  // ---------------------------------------------------------------------

  /** Hundredths that round up to 100 are printed as "100" and are not carried into the integer part. */
  lemma CentsOverflowNotCarried(whole: int)
    ensures FormatParts(AmountParts(whole, 100)) == IntegerText(whole) + ",100"
  {
  }

  /** Negative hundredths fall into the below-ten branch and print as "0-" and their magnitude. */
  lemma NegativeCentsPrinted(whole: int, cents: int)
    requires cents < 0
    ensures FormatParts(AmountParts(whole, cents)) == IntegerText(whole) + ",0-" + NatToDecimal(-cents)
  {
  }

  /**
   * An amount strictly between -1 and 0 truncates to 0 and loses its leading
   * sign; the minus survives only inside negative hundredths, as in "0,0-30".
   */
  lemma SubUnitNegativeLosesSign(x: real)
    requires -1.0 < x < 0.0
    ensures FormatAmount(x)[0] != '-'
    ensures FormatAmount(x)[0] == '0'
    ensures var cents := SplitAmount(x).cents;
      cents < 0 ==> FormatAmount(x) == "0,0-" + NatToDecimal(-cents)
  {
    var p := SplitAmount(x);
    assert p.whole == 0;
    assert IntegerText(0) == "0" by {
      assert NatToDecimal(0) == "0";
      assert GroupThousands("0") == "0";
    }
  }

  lemma DecimalOfExample()
    ensures NatToDecimal(1234567) == "1234567"
  {
    assert NatToDecimal(1) == "1";
    assert NatToDecimal(12) == "12";
    assert NatToDecimal(123) == "123";
    assert NatToDecimal(1234) == "1234";
    assert NatToDecimal(12345) == "12345";
    assert NatToDecimal(123456) == "123456";
  }

  lemma GroupingOfLastGroup()
    ensures GroupThousands("567") == "567"
  {
    assert GroupThousands("7") == "7";
    assert GroupThousands("67") == "67";
  }

  lemma GroupingOfExampleTail()
    ensures GroupThousands("234567") == "234 567"
  {
    GroupingOfLastGroup();
    assert GroupThousands("4567") == "4 567";
    assert GroupThousands("34567") == "34 567";
  }

  lemma GroupingOfExample()
    ensures GroupThousands("1234567") == "1 234 567"
  {
    var digits := "1234567";
    assert digits[1..] == "234567";
    GroupingOfExampleTail();
  }

  lemma SplitOfGroupedExample()
    ensures SplitAmount(1234567.5) == AmountParts(1234567, 50)
  {
    assert Truncate(1234567.5) == 1234567;
  }

  lemma FormatExampleGrouped()
    ensures FormatAmount(1234567.5) == "1 234 567,50"
  {
    SplitOfGroupedExample();
    DecimalOfExample();
    GroupingOfExample();
    assert FractionText(50) == "50";
  }

  lemma FormatExampleNegative()
    ensures FormatAmount(-42.3) == "-42,0-30"
  {
    assert SplitAmount(-42.3) == AmountParts(-42, -30);
    assert NatToDecimal(42) == "42";
    assert GroupThousands("2") == "2";
    assert GroupThousands("42") == "42";
  }

  lemma FormatExampleZero()
    ensures FormatAmount(0.0) == "0,00"
  {
    assert SplitAmount(0.0) == AmountParts(0, 0);
    assert GroupThousands("0") == "0";
  }

  lemma FormatExampleCentsOverflow()
    ensures FormatAmount(1.996) == "1,100"
  {
    assert SplitAmount(1.996) == AmountParts(1, 100);
    assert GroupThousands("1") == "1";
  }
}

=== FILE: billing.dfy ===
/**
 * The request-level computations of both export routes: validating the
 * billing month and the price, the `from`/`to` range sent with the history
 * request, and the usage totals.
 */
module Billing {
  import opened Wrappers
  import opened Decimal
  import opened Invoice

  /** Why an export produced no document. */
  datatype ExportError =
    | InvalidDate          // month outside 1..12 or year before 2000
    | InvalidRate          // negative price per kWh
    | InstallationsUnavailable  // the installation list could not be fetched
    | HistoryUnavailable   // the charge history could not be fetched

  /** A billing month that passed validation. */
  datatype BillingPeriod = BillingPeriod(year: int, month: int)

  predicate ValidDate(year: int, month: int) {
    1 <= month <= 12 && year >= 2000
  }

  /** The checks opening `export_usage` and `export_all_usage`: the date is checked first, then the price. */
  function ValidateRequest(year: int, month: int, rate: real): (r: Result<BillingPeriod, ExportError>)
    ensures r.Success? <==> ValidDate(year, month) && rate >= 0.0
    ensures r.Success? ==> r.value == BillingPeriod(year, month)
    ensures r == Failure(InvalidDate) <==> !ValidDate(year, month)
    ensures r == Failure(InvalidRate) <==> ValidDate(year, month) && rate < 0.0
  {
    if !(1 <= month <= 12) || year < 2000 then Failure(InvalidDate)
    else if rate < 0.0 then Failure(InvalidRate)
    else Success(BillingPeriod(year, month))
  }

  // ---------------------------------------------------------------------
  // The history range
  // ---------------------------------------------------------------------

  /** The part of a range end after the month field. */
  const MidnightOfFirst := "-01T00:00:00Z"

  /**
   * `s` reads as `year` in canonical decimal, the separator, `month` in two
   * digits, then `tail`. The fields are found from the right, so the year
   * may have any width.
   */
  predicate YearMonthText(s: string, sep: char, year: int, month: int, tail: string) {
    && |s| >= |tail| + 4
    && var n := |s| - |tail| - 3;
    && Canonical(s[..n]) && DecimalValue(s[..n]) == year
    && s[n] == sep
    && AllDigits(s[n + 1..n + 3]) && DecimalValue(s[n + 1..n + 3]) == month
    && s[n + 3..] == tail
  }

  /** Midnight UTC on the first day of `month` in `year`, in the ISO 8601 form the API takes. */
  predicate MonthStartStamp(s: string, year: int, month: int) {
    YearMonthText(s, '-', year, month, MidnightOfFirst)
  }

  /** The fields determine the text: no two texts read back as the same year, month and tail. */
  lemma YearMonthTextUnique(s: string, t: string, sep: char, year: int, month: int, tail: string)
    requires YearMonthText(s, sep, year, month, tail) && YearMonthText(t, sep, year, month, tail)
    ensures s == t
  {
    var n, m := |s| - |tail| - 3, |t| - |tail| - 3;
    var ys, yt := s[..n], t[..m];
    var ms, mt := s[n + 1..n + 3], t[m + 1..m + 3];
    assert ys == yt by {
      CanonicalRoundTrip(ys);
      CanonicalRoundTrip(yt);
    }
    TwoDigitsUnique(ms, mt);
    assert s == ys + [sep] + ms + tail;
    assert t == yt + [sep] + mt + tail;
  }

  /** Year digits, a separator, a two-digit month and a tail read back as those fields. */
  lemma YearMonthFields(y: string, sep: char, mm: string, tail: string)
    ensures Canonical(y) && |mm| == 2 && AllDigits(mm) ==>
      YearMonthText(y + [sep] + mm + tail, sep, DecimalValue(y), DecimalValue(mm), tail)
  {
    if Canonical(y) && |mm| == 2 && AllDigits(mm) {
      var s := y + [sep] + mm + tail;
      assert |s| - |tail| - 3 == |y|;
      assert s[..|y|] == y;
      assert s[|y| + 1..|y| + 3] == mm;
      assert s[|y| + 3..] == tail;
    }
  }

  /** The two fields of a validated month, as `{year}` and `{month:02d}` write them. */
  lemma MonthDigits(year: int, month: int)
    ensures year >= 0 ==> var y := IntToDecimal(year);
      Canonical(y) && DecimalValue(y) == year
    ensures 1 <= month <= 12 ==> var mm := ZeroPad2(month);
      |mm| == 2 && AllDigits(mm) && DecimalValue(mm) == month
  {
  }

  /** Midnight UTC on the first day of a month, as `f"{year}-{month:02d}-01T00:00:00Z"`. */
  function FirstOfMonth(year: int, month: int): (r: string)
    ensures year >= 0 && 1 <= month <= 12 ==> MonthStartStamp(r, year, month)
  {
    MonthDigits(year, month);
    YearMonthFields(IntToDecimal(year), '-', ZeroPad2(month), MidnightOfFirst);
    IntToDecimal(year) + "-" + ZeroPad2(month) + MidnightOfFirst
  }

  /** `from_date` in both exports: the start of the range is midnight on the first of the billing month. */
  function FromDate(period: BillingPeriod): (r: string)
    ensures ValidDate(period.year, period.month) ==> MonthStartStamp(r, period.year, period.month)
  {
    FirstOfMonth(period.year, period.month)
  }

  /**
   * `to_date` in both exports: the end of the range, rolling December over
   * into January; it reads as midnight on the first of the following month.
   */
  function ToDate(period: BillingPeriod): (r: string)
    ensures ValidDate(period.year, period.month) ==>
      var next := NextMonth(period.year, period.month);
      MonthStartStamp(r, next.0, next.1)
  {
    NextMonthCases(period.year, period.month);
    if period.month == 12 then
      JanuaryFirst(period.year + 1);
      IntToDecimal(period.year + 1) + "-01-01T00:00:00Z"
    else FirstOfMonth(period.year, period.month + 1)
  }

  /** The calendar month after a month, by counting months from year zero. */
  function NextMonth(year: int, month: int): (r: (int, int))
    requires 1 <= month <= 12
    ensures 1 <= r.1 <= 12
    ensures r.0 * 12 + r.1 == year * 12 + month + 1
  {
    var index := year * 12 + (month - 1) + 1;
    (index / 12, index % 12 + 1)
  }

  /** The month after December is January of the next year; any other month is followed within its year. */
  lemma NextMonthCases(year: int, month: int)
    ensures month == 12 ==> NextMonth(year, month) == (year + 1, 1)
    ensures 1 <= month < 12 ==> NextMonth(year, month) == (year, month + 1)
  {
    var index := year * 12 + (month - 1) + 1;
    if month == 12 {
      assert index == (year + 1) * 12;
    } else if 1 <= month < 12 {
      assert index == year * 12 + month;
    }
  }

  /**
   * The range ends where the next billing month begins, for every valid
   * month including December.
   */
  lemma ToDateIsNextFromDate(period: BillingPeriod)
    requires ValidDate(period.year, period.month)
    ensures var next := NextMonth(period.year, period.month);
      ToDate(period) == FromDate(BillingPeriod(next.0, next.1))
  {
    if period.month == 12 {
      DecemberRollsOver(period);
    } else {
      WithinYear(period);
    }
  }

  lemma DecemberRollsOver(period: BillingPeriod)
    requires period.month == 12
    ensures var next := NextMonth(period.year, period.month);
      ToDate(period) == FirstOfMonth(next.0, next.1)
  {
    NextMonthCases(period.year, period.month);
    JanuaryFirst(period.year + 1);
  }

  lemma WithinYear(period: BillingPeriod)
    requires 1 <= period.month < 12
    ensures var next := NextMonth(period.year, period.month);
      ToDate(period) == FirstOfMonth(next.0, next.1)
  {
    NextMonthCases(period.year, period.month);
  }

  /** The first of January written with the general month format. */
  lemma JanuaryFirst(year: int)
    ensures FirstOfMonth(year, 1) == IntToDecimal(year) + "-01-01T00:00:00Z"
  {
    ZeroPadOne();
    JanuaryTail(IntToDecimal(year));
  }

  lemma ZeroPadOne()
    ensures ZeroPad2(1) == "01"
  {
    assert IntToDecimal(1) == "1";
  }

  lemma JanuaryTail(y: string)
    ensures y + "-" + "01" + "-01T00:00:00Z" == y + "-01-01T00:00:00Z"
  {
    var tail := "-" + "01" + "-01T00:00:00Z";
    assert tail == "-01-01T00:00:00Z";
    assert y + "-" + "01" + "-01T00:00:00Z" == y + tail;
  }

  /** The month field of both ends is always two digits and names the month. */
  lemma RangeMonthsZeroPadded(period: BillingPeriod)
    requires ValidDate(period.year, period.month)
    ensures var mm := ZeroPad2(period.month);
      |mm| == 2 && AllDigits(mm) && DecimalValue(mm) == period.month
      && FromDate(period) == IntToDecimal(period.year) + "-" + mm + "-01T00:00:00Z"
    ensures var next := NextMonth(period.year, period.month);
      var mm := ZeroPad2(next.1);
      |mm| == 2 && AllDigits(mm) && DecimalValue(mm) == next.1
      && ToDate(period) == IntToDecimal(next.0) + "-" + mm + "-01T00:00:00Z"
  {
    ToDateIsNextFromDate(period);
  }

  // ---------------------------------------------------------------------
  // Usage totals
  // ---------------------------------------------------------------------

  /** `session.get("Energy", 0)`. */
  function EnergyOf(session: Session): real {
    session.energy.GetOr(0.0)
  }

  /** `total_kwh` in both exports: `sum(session.get("Energy", 0) for session in sessions)`, added left to right. */
  function TotalKwh(sessions: seq<Session>): (total: real)
    ensures sessions == [] ==> total == 0.0
  {
    if sessions == [] then 0.0
    else TotalKwh(sessions[..|sessions| - 1]) + EnergyOf(sessions[|sessions| - 1])
  }

  predicate NonNegativeEnergies(sessions: seq<Session>) {
    forall k :: 0 <= k < |sessions| ==> EnergyOf(sessions[k]) >= 0.0
  }

  /** Energies that are never negative add up to a total that is not negative. */
  lemma {:induction false} TotalKwhNonNegative(sessions: seq<Session>)
    requires NonNegativeEnergies(sessions)
    ensures TotalKwh(sessions) >= 0.0
    decreases |sessions|
  {
    if sessions != [] {
      var prefix := sessions[..|sessions| - 1];
      assert NonNegativeEnergies(prefix) by {
        forall k | 0 <= k < |prefix| ensures EnergyOf(prefix[k]) >= 0.0 {
          assert prefix[k] == sessions[k];
        }
      }
      TotalKwhNonNegative(prefix);
    }
  }

  /** The total of a concatenation is the sum of the totals. */
  lemma {:induction false} TotalKwhAppend(a: seq<Session>, b: seq<Session>)
    ensures TotalKwh(a + b) == TotalKwh(a) + TotalKwh(b)
    decreases |b|
  {
    if b == [] {
      assert a + b == a;
    } else {
      var b' := b[..|b| - 1];
      assert (a + b)[..|a + b| - 1] == a + b';
      TotalKwhAppend(a, b');
    }
  }

  /** The total is the energy of any one session plus the total of the others. */
  lemma TotalKwhRemoveAt(b: seq<Session>, j: int)
    requires 0 <= j < |b|
    ensures TotalKwh(b) == TotalKwh(b[..j] + b[j + 1..]) + EnergyOf(b[j])
  {
    var x, before, after := b[j], b[..j], b[j + 1..];
    SplitAt(b, j);
    TotalKwhAppend(before, [x] + after);
    TotalKwhAppend([x], after);
    assert TotalKwh([x]) == EnergyOf(x) by {
      assert [x][..0] == [];
    }
    TotalKwhAppend(before, after);
  }

  lemma SplitAt<T>(b: seq<T>, j: int)
    requires 0 <= j < |b|
    ensures b == b[..j] + ([b[j]] + b[j + 1..])
  {
    assert b[j..] == [b[j]] + b[j + 1..];
    assert b == b[..j] + b[j..];
  }

  lemma MultisetRemoveAt(b: seq<Session>, j: int)
    requires 0 <= j < |b|
    ensures multiset(b[..j] + b[j + 1..]) == multiset(b) - multiset{b[j]}
  {
    assert b == b[..j] + [b[j]] + b[j + 1..];
  }

  /** The total does not depend on the order of the sessions. */
  lemma {:induction false} TotalKwhPermutation(a: seq<Session>, b: seq<Session>)
    requires multiset(a) == multiset(b)
    ensures TotalKwh(a) == TotalKwh(b)
    decreases |a|
  {
    if a == [] {
      assert |b| == |multiset(b)| == 0;
    } else {
      var n := |a| - 1;
      var x := a[n];
      assert x in multiset(b);
      var j :| 0 <= j < |b| && b[j] == x;
      MultisetRemoveAt(a, n);
      MultisetRemoveAt(b, j);
      assert a[..n] + a[n + 1..] == a[..n];
      TotalKwhPermutation(a[..n], b[..j] + b[j + 1..]);
      TotalKwhRemoveAt(b, j);
    }
  }

  /** The aggregated totals of one installation's month. */
  datatype Totals = Totals(kwh: real, cost: real)

  /** `total_kwh` and `total_cost` in both exports: the energy total and `total_kwh * nok_per_kwh`, unrounded. */
  function UsageTotals(sessions: seq<Session>, rate: real): (t: Totals)
    ensures t.kwh == TotalKwh(sessions)
    ensures t.cost == t.kwh * rate
    ensures sessions == [] ==> t.kwh == 0.0 && t.cost == 0.0
  {
    var kwh := TotalKwh(sessions);
    Totals(kwh, kwh * rate)
  }

  /** With non-negative energies and a price that passed validation, the cost is never negative. */
  lemma CostNonNegative(sessions: seq<Session>, rate: real)
    requires NonNegativeEnergies(sessions)
    requires rate >= 0.0
    ensures UsageTotals(sessions, rate).cost >= 0.0
  {
    TotalKwhNonNegative(sessions);
  }

  /** The cost is additive over sessions, as the energy is. */
  lemma CostAdditive(a: seq<Session>, b: seq<Session>, rate: real)
    ensures UsageTotals(a + b, rate).cost == UsageTotals(a, rate).cost + UsageTotals(b, rate).cost
  {
    TotalKwhAppend(a, b);
  }
}

=== FILE: decimal.dfy ===
/**
 * Decimal text of integers, as Python's `str(int)` and the `{m:02d}` format
 * field produce it, together with the reading-back function that
 * serves as its inverse.
 */
module Decimal {

  predicate IsDigit(c: char) {
    '0' <= c <= '9'
  }

  predicate AllDigits(s: string) {
    forall i :: 0 <= i < |s| ==> IsDigit(s[i])
  }

  /** A decimal numeral without redundant leading zeros. */
  predicate Canonical(s: string) {
    |s| > 0 && AllDigits(s) && (|s| == 1 || s[0] != '0')
  }

  function DigitValue(c: char): (d: nat)
    requires IsDigit(c)
    ensures d < 10
  {
    c as int - '0' as int
  }

  function DigitChar(d: nat): (c: char)
    requires d < 10
    ensures IsDigit(c) && DigitValue(c) == d
  {
    ('0' as int + d) as char
  }

  /** The number a string of digits denotes, most significant digit first. */
  function DecimalValue(s: string): nat
    requires AllDigits(s)
  {
    if s == [] then 0 else 10 * DecimalValue(s[..|s| - 1]) + DigitValue(s[|s| - 1])
  }

  /** Python's `str(n)` for a non-negative integer. */
  function NatToDecimal(n: nat): (s: string)
    ensures Canonical(s)
    ensures DecimalValue(s) == n
    ensures |s| == 1 <==> n < 10
    ensures 10 <= n < 100 ==> |s| == 2
    decreases n
  {
    if n < 10 then [DigitChar(n)]
    else
      var prefix := NatToDecimal(n / 10);
      var s := prefix + [DigitChar(n % 10)];
      assert s[..|s| - 1] == prefix;
      s
  }

  /** Python's `str(i)` for any integer: a minus sign, then the magnitude. */
  function IntToDecimal(i: int): (s: string)
    ensures |s| > 0
    ensures s[0] == '-' <==> i < 0
    ensures i >= 0 ==> Canonical(s) && DecimalValue(s) == i
    ensures i < 0 ==> Canonical(s[1..]) && DecimalValue(s[1..]) == -i
  {
    if i < 0 then "-" + NatToDecimal(-i) else NatToDecimal(i)
  }

  /**
   * Python's `f"{m:02d}"`: at least two characters, zero-padded on the left
   * for 0..9; a negative number keeps its sign and is already two wide.
   */
  function ZeroPad2(m: int): (s: string)
    ensures 0 <= m < 100 ==> |s| == 2 && AllDigits(s) && DecimalValue(s) == m
    ensures m >= 10 || m < 0 ==> s == IntToDecimal(m)
  {
    if 0 <= m < 10 then
      var s := "0" + IntToDecimal(m);
      assert s[..1] == "0";
      s
    else IntToDecimal(m)
  }

  lemma {:induction false} CanonicalNonZeroIsPositive(s: string)
    requires Canonical(s) && s[0] != '0'
    ensures DecimalValue(s) > 0
    decreases |s|
  {
    if |s| > 1 {
      CanonicalNonZeroIsPositive(s[..|s| - 1]);
    }
  }

  /** Every canonical numeral is the text of the number it denotes. */
  lemma {:induction false} CanonicalRoundTrip(s: string)
    requires Canonical(s)
    ensures NatToDecimal(DecimalValue(s)) == s
    decreases |s|
  {
    if |s| > 1 {
      var prefix := s[..|s| - 1];
      CanonicalNonZeroIsPositive(prefix);
      CanonicalRoundTrip(prefix);
      var n := DecimalValue(s);
      assert n / 10 == DecimalValue(prefix);
      assert n % 10 == DigitValue(s[|s| - 1]);
      assert s == prefix + [s[|s| - 1]];
    }
  }

  /** Two-digit fields with the same value are the same text, as `f"{m:02d}"` promises. */
  lemma TwoDigitsUnique(a: string, b: string)
    requires |a| == 2 && AllDigits(a) && |b| == 2 && AllDigits(b)
    requires DecimalValue(a) == DecimalValue(b)
    ensures a == b
  {
    TwoDigitsValue(a);
    TwoDigitsValue(b);
  }

  lemma TwoDigitsValue(a: string)
    requires |a| == 2 && AllDigits(a)
    ensures DecimalValue(a) == 10 * DigitValue(a[0]) + DigitValue(a[1])
  {
    var first := a[..1];
    assert first[..0] == [];
    assert DecimalValue(first) == DigitValue(a[0]);
  }
}

=== FILE: export.dfy ===
/**
 * The two export routes of the web application: `export_usage`, which
 * produces the document of one installation, and `export_all_usage`, which
 * walks every installation of the account and collects one document per
 * installation whose charge history could be fetched into a zip archive.
 * The Zaptec API is a parameter: `fetch(id, from, to)` is the charge history
 * of an installation over a range, `None` where the request raised.
 */
module Export {
  import opened Wrappers
  import opened Decimal
  import opened SafeName
  import opened Invoice
  import opened Billing

  /** The charge history request: installation id, range start, range end. */
  type HistoryFetch = (string, string, string) -> Option<seq<Session>>

  /** An entry of the installation list; its name may be missing from the JSON. */
  datatype Installation = Installation(id: string, name: Option<string>)

  /** A document: the file name it is offered or archived under, and its content. */
  datatype Entry = Entry(filename: string, content: InvoiceContent)

  /** The zip archive of the batch export, entries in the order they were written. */
  datatype Archive = Archive(name: string, entries: seq<Entry>)

  /** What follows the month in a document name: the cleaned installation name and the extension. */
  function DocumentTail(name: string): string {
    "_grunnlag_" + SafeFilename(name) + ".pdf"
  }

  /**
   * `f"{year}_{month:02d}_grunnlag_{make_safe_filename(name)}.pdf"`, the
   * document name in both exports. For a validated month it reads back as the year, the
   * month and the cleaned name, and holds no character the cleaning forbids
   * and no space, whatever the installation is called.
   */
  function DocumentFilename(period: BillingPeriod, name: string): (r: string)
    ensures ValidDate(period.year, period.month) ==>
      YearMonthText(r, '_', period.year, period.month, DocumentTail(name)) && CleanText(r)
  {
    var year, mm := IntToDecimal(period.year), ZeroPad2(period.month);
    var r := year + "_" + mm + DocumentTail(name);
    assert ValidDate(period.year, period.month) ==>
      YearMonthText(r, '_', period.year, period.month, DocumentTail(name)) && CleanText(r) by {
      MonthDigits(period.year, period.month);
      YearMonthFields(year, '_', mm, DocumentTail(name));
      DocumentTailIsClean(name);
      NamedTextIsClean(year, mm, DocumentTail(name));
    }
    r
  }

  /**
   * `f"{year}_{month:02d}.zip"`, the archive name of `export_all_usage`. For a validated month it reads
   * back as the year and the month and holds no forbidden character or space.
   */
  function ArchiveName(period: BillingPeriod): (r: string)
    ensures ValidDate(period.year, period.month) ==>
      YearMonthText(r, '_', period.year, period.month, ".zip") && CleanText(r)
  {
    var year, mm := IntToDecimal(period.year), ZeroPad2(period.month);
    var r := year + "_" + mm + ".zip";
    assert ValidDate(period.year, period.month) ==>
      YearMonthText(r, '_', period.year, period.month, ".zip") && CleanText(r) by {
      MonthDigits(period.year, period.month);
      YearMonthFields(year, '_', mm, ".zip");
      assert CleanText(".zip");
      NamedTextIsClean(year, mm, ".zip");
    }
    r
  }

  lemma CleanConcat(a: string, b: string)
    requires CleanText(a) && CleanText(b)
    ensures CleanText(a + b)
  {
    forall i | 0 <= i < |a + b| ensures !IsForbidden((a + b)[i]) && (a + b)[i] != ' ' {
      if i < |a| {
        assert (a + b)[i] == a[i];
      } else {
        assert (a + b)[i] == b[i - |a|];
      }
    }
  }

  lemma DigitsAreClean(s: string)
    requires AllDigits(s)
    ensures CleanText(s)
  {
  }

  /** The cleaned name between two fixed clean texts leaves the document tail clean. */
  lemma DocumentTailIsClean(name: string)
    ensures CleanText(DocumentTail(name))
  {
    assert CleanText("_grunnlag_") && CleanText(".pdf");
    CleanConcat("_grunnlag_", SafeFilename(name));
    CleanConcat("_grunnlag_" + SafeFilename(name), ".pdf");
  }

  /** Digits, an underscore, digits and a clean tail make a clean name. */
  lemma NamedTextIsClean(year: string, mm: string, tail: string)
    ensures AllDigits(year) && AllDigits(mm) && CleanText(tail) ==> CleanText(year + "_" + mm + tail)
  {
    if AllDigits(year) && AllDigits(mm) && CleanText(tail) {
      DigitsAreClean(year);
      DigitsAreClean(mm);
      assert CleanText("_");
      CleanConcat(year, "_");
      CleanConcat(year + "_", mm);
      CleanConcat(year + "_" + mm, tail);
    }
  }

  /**
   * Two installations of the same month share a document name exactly when
   * their names clean to the same text.
   */
  lemma DocumentFilenameCollision(period: BillingPeriod, a: string, b: string)
    ensures DocumentFilename(period, a) == DocumentFilename(period, b) <==> SafeFilename(a) == SafeFilename(b)
  {
    var stem := IntToDecimal(period.year) + "_" + ZeroPad2(period.month);
    PrefixCancels(stem, DocumentTail(a), DocumentTail(b));
    SurroundedEqual("_grunnlag_", SafeFilename(a), SafeFilename(b), ".pdf");
  }

  /** Texts with the same prefix are equal exactly when the rests are. */
  lemma PrefixCancels(pre: string, x: string, y: string)
    ensures pre + x == pre + y <==> x == y
  {
    if pre + x == pre + y {
      assert x == (pre + x)[|pre|..];
      assert y == (pre + y)[|pre|..];
    }
  }

  /** Texts with the same prefix and suffix are equal exactly when their middles are. */
  lemma SurroundedEqual(pre: string, x: string, y: string, suf: string)
    ensures pre + x + suf == pre + y + suf <==> x == y
  {
    if pre + x + suf == pre + y + suf {
      assert |x| == |y|;
      assert x == (pre + x + suf)[|pre|..|pre| + |x|];
      assert y == (pre + y + suf)[|pre|..|pre| + |y|];
    }
  }

  // ---------------------------------------------------------------------
  // One installation
  // ---------------------------------------------------------------------

  /**
   * The document of one installation for a month, from its fetched sessions:
   * the totals and `generate_invoice_pdf` call of both exports, under the
   * document name both give it.
   */
  function DocumentFor(
    period: BillingPeriod, rate: real, id: string, name: string,
    sessions: seq<Session>, reformat: string -> Option<string>): (r: Entry)
    ensures r.filename == DocumentFilename(period, name)
    ensures r.content.title == "Fakturagrunnlag (" + DisplayName(id, Some(name)) + ")"
    ensures r.content.intro ==
      [ Text("For periode " + PeriodLabel(period.year, period.month)
          + " er den gjennomsnittlige strømprisne inkludert påslag satt til "),
        Fixed(rate, 2),
        Text(" NOK per kWh.") ]
    ensures r.content.heading == DetailHeading
    ensures var totals := UsageTotals(sessions, rate);
      && r.content.lineItems == LineItems(period.year, period.month, totals.kwh, rate, totals.cost)
      && r.content.detail == DetailSection(sessions, totals.kwh, reformat)
  {
    var totals := UsageTotals(sessions, rate);
    Entry(
      DocumentFilename(period, name),
      BuildInvoice(id, Some(name), period.year, period.month, sessions, totals.kwh, rate, totals.cost, reformat))
  }

  /**
   * `export_usage`: validation, the history of the month,
   * then the document. A failed history request ends the export.
   */
  function ExportOne(
    id: string, name: string, year: int, month: int, rate: real,
    fetch: HistoryFetch, reformat: string -> Option<string>): (r: Result<Entry, ExportError>)
    ensures !ValidDate(year, month) ==> r == Failure(InvalidDate)
    ensures ValidDate(year, month) && rate < 0.0 ==> r == Failure(InvalidRate)
    ensures r.Failure? ==> r.error != InstallationsUnavailable
    ensures ValidDate(year, month) && rate >= 0.0 ==>
      var period := BillingPeriod(year, month);
      var history := fetch(id, FromDate(period), ToDate(period));
      && (history.None? <==> r == Failure(HistoryUnavailable))
      && (history.Some? ==> r == Success(DocumentFor(period, rate, id, name, history.value, reformat)))
  {
    match ValidateRequest(year, month, rate)
    case Failure(e) => Failure(e)
    case Success(period) =>
      match fetch(id, FromDate(period), ToDate(period))
      case None => Failure(HistoryUnavailable)
      case Some(sessions) => Success(DocumentFor(period, rate, id, name, sessions, reformat))
  }

  // ---------------------------------------------------------------------
  // Every installation
  // ---------------------------------------------------------------------

  /** An installation of the list together with the outcome of its history request. */
  datatype Fetched = Fetched(installation: Installation, history: Option<seq<Session>>)

  /** The history request of every installation, over the range of the month. */
  function FetchAll(period: BillingPeriod, fetch: HistoryFetch, installations: seq<Installation>): (fetched: seq<Fetched>)
    ensures |fetched| == |installations|
    ensures forall k :: 0 <= k < |fetched| ==> fetched[k].installation == installations[k]
    ensures forall k :: 0 <= k < |fetched| ==>
      fetched[k].history == fetch(installations[k].id, FromDate(period), ToDate(period))
  {
    seq(|installations|, k requires 0 <= k < |installations| =>
      Fetched(installations[k], fetch(installations[k].id, FromDate(period), ToDate(period))))
  }

  /** The history arrived and the installation has a name to file the document under. */
  predicate Usable(f: Fetched) {
    f.history.Some? && f.installation.name.Some?
  }

  /**
   * Every installation whose history arrives has a name: the batch passes
   * `installation.get("Name")` to the file-name cleaning, which fails on a
   * missing name.
   */
  predicate NamedWhenFetched(fetched: seq<Fetched>) {
    forall k :: 0 <= k < |fetched| && fetched[k].history.Some? ==> Usable(fetched[k])
  }

  /** How a document is made from an installation's id, name and sessions. */
  type DocumentMaker = (string, string, seq<Session>) -> Entry

  /** The documents of one month at one price. */
  function MonthlyDocument(period: BillingPeriod, rate: real, reformat: string -> Option<string>): DocumentMaker {
    (id, name, sessions) => DocumentFor(period, rate, id, name, sessions, reformat)
  }

  /** The document written for an installation whose history arrived. */
  function BatchEntry(document: DocumentMaker, f: Fetched): Entry
    requires Usable(f)
  {
    document(f.installation.id, f.installation.name.value, f.history.value)
  }

  /**
   * The loop of `export_all_usage` over the installations seen so far: one whose
   * history request raises is skipped (`continue`), every other one adds
   * its document.
   */
  function BatchEntries(
    document: DocumentMaker, fetched: seq<Fetched>): (entries: seq<Entry>)
    requires NamedWhenFetched(fetched)
    ensures |entries| <= |fetched|
    decreases |fetched|
  {
    if fetched == [] then []
    else
      var prefix := fetched[..|fetched| - 1];
      var last := fetched[|fetched| - 1];
      assert NamedWhenFetched(prefix) by {
        forall k | 0 <= k < |prefix| ensures prefix[k] == fetched[k] { }
      }
      BatchEntries(document, prefix)
      + (if last.history.Some? then [BatchEntry(document, last)] else [])
  }

  /** The positions of the installations whose history arrived, in increasing order. */
  function FetchedPositions(fetched: seq<Fetched>): (idx: seq<nat>)
    ensures forall k :: 0 <= k < |idx| ==> idx[k] < |fetched|
    ensures forall k, l :: 0 <= k < l < |idx| ==> idx[k] < idx[l]
    ensures forall j :: 0 <= j < |fetched| ==> (j in idx <==> fetched[j].history.Some?)
    decreases |fetched|
  {
    if fetched == [] then []
    else
      var n := |fetched| - 1;
      var idx := FetchedPositions(fetched[..n]);
      var r := idx + (if fetched[n].history.Some? then [n] else []);
      forall j | 0 <= j < n ensures (j in r <==> fetched[j].history.Some?) {
        assert fetched[..n][j] == fetched[j];
        assert j in r <==> j in idx;
      }
      r
  }

  /**
   * The k-th document of the batch belongs to the k-th installation whose
   * history arrived: nothing is reordered, dropped or invented.
   */
  lemma {:induction false} BatchEntriesAreFetchedOnes(
    document: DocumentMaker, fetched: seq<Fetched>)
    requires NamedWhenFetched(fetched)
    ensures var entries := BatchEntries(document, fetched);
      var idx := FetchedPositions(fetched);
      && |entries| == |idx|
      && forall k :: 0 <= k < |idx| ==>
        Usable(fetched[idx[k]]) && entries[k] == BatchEntry(document, fetched[idx[k]])
    decreases |fetched|
  {
    if fetched != [] {
      var n := |fetched| - 1;
      var prefix := fetched[..n];
      assert NamedWhenFetched(prefix) by {
        forall k | 0 <= k < |prefix| ensures prefix[k] == fetched[k] { }
      }
      BatchEntriesAreFetchedOnes(document, prefix);
      var before := BatchEntries(document, prefix);
      var idx := FetchedPositions(prefix);
      var entries := BatchEntries(document, fetched);
      var all := FetchedPositions(fetched);
      var added := if fetched[n].history.Some? then [BatchEntry(document, fetched[n])] else [];
      assert entries == before + added;
      assert all == idx + (if fetched[n].history.Some? then [n] else []);
      forall k | 0 <= k < |all|
        ensures Usable(fetched[all[k]]) && entries[k] == BatchEntry(document, fetched[all[k]])
      {
        if k < |idx| {
          assert all[k] == idx[k] && entries[k] == before[k];
          assert fetched[idx[k]] == prefix[idx[k]];
        }
      }
    }
  }

  /** Each document of the batch is the one the single export gives for that installation. */
  lemma BatchAgreesWithSingleExport(
    period: BillingPeriod, rate: real, fetch: HistoryFetch, reformat: string -> Option<string>,
    installations: seq<Installation>, k: nat)
    requires ValidDate(period.year, period.month) && rate >= 0.0
    requires NamedWhenFetched(FetchAll(period, fetch, installations))
    requires k < |FetchedPositions(FetchAll(period, fetch, installations))|
    ensures |BatchEntries(MonthlyDocument(period, rate, reformat), FetchAll(period, fetch, installations))|
      == |FetchedPositions(FetchAll(period, fetch, installations))|
    ensures var j := FetchedPositions(FetchAll(period, fetch, installations))[k];
      && installations[j].name.Some?
      && ExportOne(installations[j].id, installations[j].name.value, period.year, period.month, rate, fetch, reformat)
         == Success(BatchEntries(MonthlyDocument(period, rate, reformat), FetchAll(period, fetch, installations))[k])
  {
    var fetched := FetchAll(period, fetch, installations);
    BatchEntriesAreFetchedOnes(MonthlyDocument(period, rate, reformat), fetched);
    var j := FetchedPositions(fetched)[k];
    assert fetched[j].installation == installations[j];
  }

  /** Appending installations appends their documents. */
  lemma {:induction false} BatchEntriesAppend(document: DocumentMaker, a: seq<Fetched>, b: seq<Fetched>)
    requires NamedWhenFetched(a + b)
    ensures NamedWhenFetched(a) && NamedWhenFetched(b)
    ensures BatchEntries(document, a + b) == BatchEntries(document, a) + BatchEntries(document, b)
    decreases |b|
  {
    forall k | 0 <= k < |a| ensures (a + b)[k] == a[k] { }
    forall k | 0 <= k < |b| ensures (a + b)[|a| + k] == b[k] { }
    if b == [] {
      assert a + b == a;
    } else {
      var b' := b[..|b| - 1];
      assert (a + b)[..|a + b| - 1] == a + b';
      BatchEntriesAppend(document, a, b');
    }
  }

  /** An installation whose history request fails leaves no trace in the archive. */
  lemma SkippedInstallation(document: DocumentMaker, a: seq<Fetched>, skipped: Fetched, b: seq<Fetched>)
    requires skipped.history.None?
    requires NamedWhenFetched(a + [skipped] + b)
    ensures NamedWhenFetched(a + b)
    ensures BatchEntries(document, a + [skipped] + b) == BatchEntries(document, a + b)
  {
    BatchEntriesAppend(document, a + [skipped], b);
    BatchEntriesAppend(document, a, [skipped]);
    assert BatchEntries(document, [skipped]) == [] by {
      assert [skipped][..0] == [];
    }
    forall k | 0 <= k < |a + b| && (a + b)[k].history.Some?
      ensures Usable((a + b)[k])
    {
      if k < |a| {
        assert (a + b)[k] == (a + [skipped] + b)[k];
      } else {
        assert (a + b)[k] == (a + [skipped] + b)[k + 1];
      }
    }
    BatchEntriesAppend(document, a, b);
  }

  /**
   * Two installations whose names clean to the same text both reach the
   * archive under one file name; the archive keeps both entries.
   */
  lemma DuplicateNamesBothKept(
    period: BillingPeriod, rate: real, reformat: string -> Option<string>, first: Fetched, second: Fetched)
    requires Usable(first) && Usable(second)
    requires SafeFilename(first.installation.name.value) == SafeFilename(second.installation.name.value)
    ensures NamedWhenFetched([first, second])
    ensures var entries := BatchEntries(MonthlyDocument(period, rate, reformat), [first, second]);
      |entries| == 2 && entries[0].filename == entries[1].filename
  {
    BothFetchedKept(MonthlyDocument(period, rate, reformat), first, second);
    MonthlyDocumentFilename(period, rate, reformat, first);
    MonthlyDocumentFilename(period, rate, reformat, second);
    DocumentFilenameCollision(period, first.installation.name.value, second.installation.name.value);
  }

  /** A single installation whose history arrived gives exactly its document. */
  lemma SingleFetched(document: DocumentMaker, f: Fetched)
    requires Usable(f)
    ensures NamedWhenFetched([f])
    ensures BatchEntries(document, [f]) == [BatchEntry(document, f)]
  {
    assert [f][..0] == [];
  }

  /** Two installations whose histories arrived give their two documents, in order. */
  lemma BothFetchedKept(document: DocumentMaker, first: Fetched, second: Fetched)
    requires Usable(first) && Usable(second)
    ensures NamedWhenFetched([first, second])
    ensures BatchEntries(document, [first, second]) == [BatchEntry(document, first), BatchEntry(document, second)]
  {
    SingleFetched(document, first);
    SingleFetched(document, second);
    assert [first] + [second] == [first, second];
    BatchEntriesAppend(document, [first], [second]);
  }

  /** A document of the month is filed under the cleaned name of its installation. */
  lemma MonthlyDocumentFilename(period: BillingPeriod, rate: real, reformat: string -> Option<string>, f: Fetched)
    requires Usable(f)
    ensures BatchEntry(MonthlyDocument(period, rate, reformat), f).filename
      == DocumentFilename(period, f.installation.name.value)
  {
  }

  /** One more installation of the list adds its document exactly when its history arrived. */
  lemma BatchEntriesStep(document: DocumentMaker, fetched: seq<Fetched>, i: nat)
    requires NamedWhenFetched(fetched) && i < |fetched|
    ensures NamedWhenFetched(fetched[..i]) && NamedWhenFetched(fetched[..i + 1])
    ensures BatchEntries(document, fetched[..i + 1]) == BatchEntries(document, fetched[..i])
      + (if fetched[i].history.Some? then [BatchEntry(document, fetched[i])] else [])
  {
    assert fetched[..i + 1][..i] == fetched[..i];
    forall k | 0 <= k <= i ensures fetched[..i + 1][k] == fetched[k] { }
  }

  /**
   * The batch loop as it runs: one pass over the installation list, asking
   * for each history and appending a document whenever it arrives.
   */
  method CollectDocuments(
    period: BillingPeriod, rate: real, fetch: HistoryFetch, reformat: string -> Option<string>,
    installations: seq<Installation>) returns (entries: seq<Entry>)
    requires NamedWhenFetched(FetchAll(period, fetch, installations))
    ensures entries == BatchEntries(MonthlyDocument(period, rate, reformat), FetchAll(period, fetch, installations))
  {
    var fetched := FetchAll(period, fetch, installations);
    var document := MonthlyDocument(period, rate, reformat);
    var from, to := FromDate(period), ToDate(period);
    entries := [];
    var i := 0;
    while i < |installations|
      invariant 0 <= i <= |installations|
      invariant NamedWhenFetched(fetched[..i])
      invariant entries == BatchEntries(document, fetched[..i])
      decreases |installations| - i
    {
      var installation := installations[i];
      assert fetched[i] == Fetched(installation, fetch(installation.id, from, to));
      BatchEntriesStep(document, fetched, i);
      match fetch(installation.id, from, to) {
        case None =>
        case Some(sessions) =>
          assert Usable(fetched[i]);
          entries := entries + [document(installation.id, installation.name.value, sessions)];
      }
      i := i + 1;
    }
    assert fetched[..i] == fetched;
  }

  /**
   * `export_all_usage`: validation, then the installation
   * list (`None` where that request raised), then the archive. Histories
   * that cannot be fetched never fail the export.
   */
  function ExportAll(
    year: int, month: int, rate: real, installations: Option<seq<Installation>>,
    fetch: HistoryFetch, reformat: string -> Option<string>): (r: Result<Archive, ExportError>)
    requires ValidDate(year, month) && rate >= 0.0 && installations.Some? ==>
      NamedWhenFetched(FetchAll(BillingPeriod(year, month), fetch, installations.value))
    ensures !ValidDate(year, month) ==> r == Failure(InvalidDate)
    ensures ValidDate(year, month) && rate < 0.0 ==> r == Failure(InvalidRate)
    ensures ValidDate(year, month) && rate >= 0.0 ==> (r.Success? <==> installations.Some?)
    ensures r.Failure? ==> r.error != HistoryUnavailable
    ensures r.Success? ==>
      var period := BillingPeriod(year, month);
      && r.value.name == ArchiveName(period)
      && r.value.entries == BatchEntries(MonthlyDocument(period, rate, reformat), FetchAll(period, fetch, installations.value))
  {
    match ValidateRequest(year, month, rate)
    case Failure(e) => Failure(e)
    case Success(period) =>
      match installations
      case None => Failure(InstallationsUnavailable)
      case Some(list) =>
        Success(Archive(ArchiveName(period), BatchEntries(MonthlyDocument(period, rate, reformat), FetchAll(period, fetch, list))))
  }
}

=== FILE: invoice.dfy ===
/**
 * The content `generate_invoice_pdf` assembles before handing it to the PDF
 * library: the title, the introductory sentence, the summary table of line
 * items and either the per-session usage table or the "no sessions"
 * sentence. Page layout, fonts and rules are not modelled.
 */
module Invoice {
  import opened Wrappers
  import opened Decimal
  import opened Accounting

  /** One record of the charge history; every field may be missing from the JSON. */
  datatype Session = Session(
    startDateTime: Option<string>,
    endDateTime: Option<string>,
    deviceName: Option<string>,
    energy: Option<real>)

  /**
   * A table cell or piece of a paragraph. Text produced by Python's float
   * formatting is kept as the number and the formatting asked for:
   * `Fixed(v, n)` is `f"{v:.nf}"` and `Repr(v)` is `str(v)`.
   */
  datatype Cell = Text(text: string) | Fixed(value: real, places: nat) | Repr(value: real)

  /** What follows the "Detaljert strømforbruk for perioden" heading. */
  datatype Detail = UsageTable(rows: seq<seq<Cell>>) | NoSessions(sentence: string)

  datatype InvoiceContent = InvoiceContent(
    title: string,
    intro: seq<Cell>,
    lineItems: seq<seq<Cell>>,
    heading: string,
    detail: Detail)

  /** The VAT charged: the invoice states none. */
  const NoVat: real := 0.0
  const NotAvailable := "N/A"
  const NoSessionsSentence := "Ingen ladesesjoner funnet for denne perioden."
  const DetailHeading := "Detaljert strømforbruk for perioden"
  const LineItemHeader: seq<Cell> :=
    [Text("Beskrivelse"), Text("Antall"), Text("Pris"), Text("Rabatt"), Text("MVA"), Text("Beløp")]
  const UsageHeader: seq<Cell> :=
    [Text("Starttidspunkt"), Text("Sluttidspunkt"), Text("Ladeenhet"), Text("Strømforbruk (kWh)")]

  /** The name shown in the title: `installation_name or installation_id`. */
  function DisplayName(id: string, name: Option<string>): (r: string)
    ensures name.Some? && name.value != "" ==> r == name.value
    ensures name.None? || name.value == "" ==> r == id
  {
    if name.Some? && name.value != "" then name.value else id
  }

  /** `f"{year}-{month:02d}"`. */
  function PeriodLabel(year: int, month: int): string {
    IntToDecimal(year) + "-" + ZeroPad2(month)
  }

  /** The monetary cell text `f"{format_norwegian_accounting(x)} kr"`. */
  function Kroner(x: real): string {
    FormatAmount(x) + " kr"
  }

  // ---------------------------------------------------------------------
  // The summary table
  // ---------------------------------------------------------------------

  /** A summary row below the first: four blank cells, a caption and an amount. */
  function TotalRow(caption: string, amount: string): seq<Cell> {
    [Text(""), Text(""), Text(""), Text(""), Text(caption), Text(amount)]
  }

  /**
   * The summary table around its texts: the period text, the quantity, the
   * unit price, the amount charged and the VAT amount.
   */
  function SummaryTable(period: string, totalKwh: real, rate: real, amount: string, vat: string): (rows: seq<seq<Cell>>)
    ensures |rows| == 5
    ensures forall k :: 0 <= k < |rows| ==> |rows[k]| == 6
    ensures rows[0] == LineItemHeader
  {
    var usage := [ Text("Strømforbruk " + period), Fixed(totalKwh, 3), Fixed(rate, 2),
                   Text("0 %"), Text("0 %"), Text(amount) ];
    [ LineItemHeader, usage,
      TotalRow("Nettobeløp", amount),
      TotalRow("Merverdiavgift", vat),
      TotalRow("Beløp å betale", amount) ]
  }

  /** Where each text of the summary table stands. */
  lemma SummaryTableCells(period: string, totalKwh: real, rate: real, amount: string, vat: string)
    ensures var rows := SummaryTable(period, totalKwh, rate, amount, vat);
      && rows[1] == [ Text("Strømforbruk " + period), Fixed(totalKwh, 3), Fixed(rate, 2),
                      Text("0 %"), Text("0 %"), Text(amount) ]
      && rows[2] == TotalRow("Nettobeløp", amount)
      && rows[3] == TotalRow("Merverdiavgift", vat)
      && rows[4] == TotalRow("Beløp å betale", amount)
  {
  }

  /** `line_items`: the header, the usage line, net amount, VAT and amount payable. */
  function LineItems(year: int, month: int, totalKwh: real, rate: real, totalCost: real): (rows: seq<seq<Cell>>)
    ensures |rows| == 5
    ensures forall k :: 0 <= k < |rows| ==> |rows[k]| == 6
    ensures rows[0] == LineItemHeader
  {
    SummaryTable(PeriodLabel(year, month), totalKwh, rate, Kroner(totalCost), Kroner(NoVat))
  }

  /** The usage line carries the period, the quantity, the unit price and no discount or VAT. */
  lemma UsageLineCells(year: int, month: int, totalKwh: real, rate: real, totalCost: real)
    ensures var rows := LineItems(year, month, totalKwh, rate, totalCost);
      && rows[1][0] == Text("Strømforbruk " + PeriodLabel(year, month))
      && rows[1][1] == Fixed(totalKwh, 3) && rows[1][2] == Fixed(rate, 2)
      && rows[1][3] == Text("0 %") && rows[1][4] == Text("0 %")
  {
    SummaryTableCells(PeriodLabel(year, month), totalKwh, rate, Kroner(totalCost), Kroner(NoVat));
  }

  /** The captions of the net amount, VAT and amount payable lines stand in the fifth column. */
  lemma TotalRowCaptions(year: int, month: int, totalKwh: real, rate: real, totalCost: real)
    ensures var rows := LineItems(year, month, totalKwh, rate, totalCost);
      && rows[2][4] == Text("Nettobeløp")
      && rows[3][4] == Text("Merverdiavgift")
      && rows[4][4] == Text("Beløp å betale")
  {
    SummaryTableCells(PeriodLabel(year, month), totalKwh, rate, Kroner(totalCost), Kroner(NoVat));
  }

  /** The usage line, the net amount and the amount payable all show the formatted total cost. */
  lemma AmountCells(year: int, month: int, totalKwh: real, rate: real, totalCost: real)
    ensures var rows := LineItems(year, month, totalKwh, rate, totalCost);
      && rows[1][5] == Text(FormatAmount(totalCost) + " kr")
      && rows[2][5] == rows[1][5]
      && rows[4][5] == rows[1][5]
  {
    SummaryTableCells(PeriodLabel(year, month), totalKwh, rate, Kroner(totalCost), Kroner(NoVat));
  }

  /** No VAT is charged: the VAT line shows zero kroner. */
  lemma VatCell(year: int, month: int, totalKwh: real, rate: real, totalCost: real)
    ensures LineItems(year, month, totalKwh, rate, totalCost)[3][5] == Text("0,00 kr")
  {
    FormatExampleZero();
    assert Kroner(NoVat) == "0,00 kr";
    SummaryTableCells(PeriodLabel(year, month), totalKwh, rate, Kroner(totalCost), Kroner(NoVat));
  }

  // ---------------------------------------------------------------------
  // The usage table
  // ---------------------------------------------------------------------

  /** A timestamp was tried and `fromisoformat` accepted it. */
  predicate Reformatted(raw: string, reformat: string -> Option<string>) {
    raw != NotAvailable && reformat(raw).Some?
  }

  /** A timestamp was tried and `fromisoformat` raised. */
  predicate Rejected(raw: string, reformat: string -> Option<string>) {
    raw != NotAvailable && reformat(raw).None?
  }

  /**
   * In `generate_invoice_pdf`, start and end are reformatted inside one `try`; the first
   * failure abandons the rest, and "N/A" is never handed to the parser.
   * `reformat` stands for `datetime.fromisoformat(t).strftime("%Y-%m-%d %H:%M")`,
   * `None` where that raises.
   */
  function ShownTimes(start: string, end: string, reformat: string -> Option<string>): (r: (string, string))
    ensures Rejected(start, reformat) ==> r == (start, end)
    ensures !Rejected(start, reformat) ==> r.0 == (if Reformatted(start, reformat) then reformat(start).value else start)
    ensures !Rejected(start, reformat) ==> r.1 == (if Reformatted(end, reformat) then reformat(end).value else end)
  {
    var shownStart := if start != NotAvailable then reformat(start) else Some(start);
    if shownStart.None? then (start, end)
    else
      var shownEnd := if end != NotAvailable then reformat(end) else Some(end);
      if shownEnd.None? then (shownStart.value, end) else (shownStart.value, shownEnd.value)
  }

  /** One row of `usage_data` for a session in `generate_invoice_pdf`. */
  function SessionRow(session: Session, reformat: string -> Option<string>): (row: seq<Cell>)
    ensures |row| == 4
    ensures var times := ShownTimes(session.startDateTime.GetOr(NotAvailable), session.endDateTime.GetOr(NotAvailable), reformat);
      row[0] == Text(times.0) && row[1] == Text(times.1)
    ensures row[2] == Text(session.deviceName.GetOr(NotAvailable))
    ensures session.energy.None? ==> row[3] == Text("0")
    ensures session.energy.Some? ==> row[3] == Repr(session.energy.value)
  {
    var times := ShownTimes(session.startDateTime.GetOr(NotAvailable), session.endDateTime.GetOr(NotAvailable), reformat);
    [ Text(times.0), Text(times.1), Text(session.deviceName.GetOr(NotAvailable)),
      match session.energy
      case Some(e) => Repr(e)
      case None => Text("0") ]
  }

  /** A session without start and end times shows "N/A" in both time cells; the parser is never asked. */
  lemma MissingTimesShownAsNotAvailable(session: Session, reformat: string -> Option<string>)
    requires session.startDateTime.None? && session.endDateTime.None?
    ensures SessionRow(session, reformat)[0] == Text("N/A")
    ensures SessionRow(session, reformat)[1] == Text("N/A")
  {
    assert !Rejected(NotAvailable, reformat) && !Reformatted(NotAvailable, reformat);
  }

  /** The session rows, one per session and in the order of the sessions. */
  function SessionRows(sessions: seq<Session>, reformat: string -> Option<string>): (rows: seq<seq<Cell>>)
    ensures |rows| == |sessions|
    ensures forall k :: 0 <= k < |sessions| ==> rows[k] == SessionRow(sessions[k], reformat)
  {
    if sessions == [] then []
    else SessionRows(sessions[..|sessions| - 1], reformat) + [SessionRow(sessions[|sessions| - 1], reformat)]
  }

  /** The closing row of the usage table. */
  function SumRow(totalKwh: real): seq<Cell> {
    [Text("Sum kWh"), Text(""), Text(""), Fixed(totalKwh, 3)]
  }

  /** The detail part of `generate_invoice_pdf`: the usage table when there are sessions, the sentence otherwise. */
  function DetailSection(sessions: seq<Session>, totalKwh: real, reformat: string -> Option<string>): (d: Detail)
    ensures d.NoSessions? <==> sessions == []
    ensures d.NoSessions? ==> d.sentence == NoSessionsSentence
    ensures d.UsageTable? ==> |d.rows| == |sessions| + 2
    ensures d.UsageTable? ==> d.rows[0] == UsageHeader && d.rows[|d.rows| - 1] == SumRow(totalKwh)
    ensures d.UsageTable? ==> forall k :: 0 <= k < |sessions| ==> d.rows[k + 1] == SessionRow(sessions[k], reformat)
  {
    if sessions == [] then NoSessions(NoSessionsSentence)
    else UsageTable([UsageHeader] + SessionRows(sessions, reformat) + [SumRow(totalKwh)])
  }

  // ---------------------------------------------------------------------
  // The whole document
  // ---------------------------------------------------------------------

  /** The content of `generate_invoice_pdf(...)`. */
  function BuildInvoice(
    id: string, name: Option<string>, year: int, month: int, sessions: seq<Session>,
    totalKwh: real, rate: real, totalCost: real, reformat: string -> Option<string>): (inv: InvoiceContent)
    ensures inv.title == "Fakturagrunnlag (" + DisplayName(id, name) + ")"
    ensures inv.intro ==
      [ Text("For periode " + PeriodLabel(year, month)
          + " er den gjennomsnittlige strømprisne inkludert påslag satt til "),
        Fixed(rate, 2),
        Text(" NOK per kWh.") ]
    ensures inv.lineItems == LineItems(year, month, totalKwh, rate, totalCost)
    ensures inv.heading == DetailHeading
    ensures inv.detail == DetailSection(sessions, totalKwh, reformat)
  {
    InvoiceContent(
      "Fakturagrunnlag (" + DisplayName(id, name) + ")",
      [ Text("For periode " + PeriodLabel(year, month)
          + " er den gjennomsnittlige strømprisne inkludert påslag satt til "),
        Fixed(rate, 2),
        Text(" NOK per kWh.") ],
      LineItems(year, month, totalKwh, rate, totalCost),
      DetailHeading,
      DetailSection(sessions, totalKwh, reformat))
  }
}

=== FILE: safename.dfy ===
/**
 * `make_safe_filename`: every character of `<>:"/\|?*` becomes `_`, spaces
 * and dots are stripped from both ends, and the remaining spaces become `_`.
 */
module SafeName {

  /** The character class of the regular expression `[<>:"/\\|?*]`. */
  predicate IsForbidden(c: char) {
    c in {'<', '>', ':', '"', '/', '\\', '|', '?', '*'}
  }

  /** The characters `str.strip(" .")` removes from the ends. */
  predicate IsEdgeChar(c: char) {
    c == ' ' || c == '.'
  }

  /** What becomes of a character that survives the stripping. */
  function CleanChar(c: char): char {
    if IsForbidden(c) || c == ' ' then '_' else c
  }

  /** `re.sub(r'[<>:"/\\|?*]', "_", s)`. */
  function ReplaceForbidden(s: string): (r: string)
    ensures |r| == |s|
    ensures forall i :: 0 <= i < |s| ==> r[i] == (if IsForbidden(s[i]) then '_' else s[i])
  {
    if s == [] then [] else [if IsForbidden(s[0]) then '_' else s[0]] + ReplaceForbidden(s[1..])
  }

  /** Where `lstrip(" .")` stops when it starts at index `i`: the first non-edge character at or after `i`. */
  function KeptStart(s: string, i: nat): (a: nat)
    requires i <= |s|
    ensures i <= a <= |s|
    ensures forall k :: i <= k < a ==> IsEdgeChar(s[k])
    ensures a < |s| ==> !IsEdgeChar(s[a])
    decreases |s| - i
  {
    if i < |s| && IsEdgeChar(s[i]) then KeptStart(s, i + 1) else i
  }

  /** Where `rstrip(" .")` stops when it works down from index `j` but not below `lo`. */
  function KeptEnd(s: string, lo: nat, j: nat): (b: nat)
    requires lo <= j <= |s|
    ensures lo <= b <= j
    ensures forall k :: b <= k < j ==> IsEdgeChar(s[k])
    ensures lo < b ==> !IsEdgeChar(s[b - 1])
    decreases j
  {
    if lo < j && IsEdgeChar(s[j - 1]) then KeptEnd(s, lo, j - 1) else j
  }

  /** `s.strip(" .")`: strip the front, then strip the back of what is left. */
  function StripEdges(s: string): string {
    var a := KeptStart(s, 0);
    s[a..KeptEnd(s, a, |s|)]
  }

  /** `s.replace(" ", "_")`. */
  function ReplaceSpaces(s: string): (r: string)
    ensures |r| == |s|
    ensures forall i :: 0 <= i < |s| ==> r[i] == (if s[i] == ' ' then '_' else s[i])
  {
    if s == [] then [] else [if s[0] == ' ' then '_' else s[0]] + ReplaceSpaces(s[1..])
  }

  /** No character the cleaning forbids and no space. */
  predicate CleanText(s: string) {
    forall i :: 0 <= i < |s| ==> !IsForbidden(s[i]) && s[i] != ' '
  }

  /** `make_safe_filename(name)`. */
  function SafeFilename(name: string): (r: string)
    ensures |r| <= |name|
    ensures CleanText(r)
    ensures |r| > 0 ==> !IsEdgeChar(r[0]) && !IsEdgeChar(r[|r| - 1])
  {
    var replaced := ReplaceForbidden(name);
    var stripped := StripEdges(replaced);
    StripEdgesKeepsCharacters(replaced);
    ReplaceSpaces(stripped)
  }

  /** What stripping keeps is a run of the original characters that neither starts nor ends with an edge character. */
  lemma StripEdgesKeepsCharacters(s: string)
    ensures var t := StripEdges(s);
      && |t| <= |s|
      && (forall i :: 0 <= i < |t| ==> t[i] in s)
      && (|t| > 0 ==> !IsEdgeChar(t[0]) && !IsEdgeChar(t[|t| - 1]))
  {
    var a := KeptStart(s, 0);
    var b := KeptEnd(s, a, |s|);
    var t := s[a..b];
    forall i | 0 <= i < |t| ensures t[i] in s {
      assert t[i] == s[a + i];
    }
  }

  /**
   * `[a, b)` is what stripping keeps of `s`: only edge characters lie outside
   * it, and it neither starts nor ends with one.
   */
  predicate StrippedWindow(s: string, a: int, b: int) {
    && 0 <= a <= b <= |s|
    && (forall i :: 0 <= i < a ==> IsEdgeChar(s[i]))
    && (forall i :: b <= i < |s| ==> IsEdgeChar(s[i]))
    && (a < b ==> !IsEdgeChar(s[a]) && !IsEdgeChar(s[b - 1]))
  }

  /** Replacing forbidden characters never creates or removes an edge character. */
  lemma ReplaceForbiddenKeepsWindow(name: string, a: int, b: int)
    requires StrippedWindow(ReplaceForbidden(name), a, b)
    ensures StrippedWindow(name, a, b)
  {
    var replaced := ReplaceForbidden(name);
    forall i | 0 <= i < |name| ensures IsEdgeChar(name[i]) <==> IsEdgeChar(replaced[i]) {
    }
  }

  /**
   * `r` is the window `[a, b)` of `name` that stripping keeps, each
   * character kept in place except that forbidden characters and spaces
   * become `_`.
   */
  predicate CleanedWindow(name: string, r: string, a: int, b: int) {
    && StrippedWindow(name, a, b)
    && |r| == b - a
    && forall i :: 0 <= i < b - a ==> r[i] == CleanChar(name[a + i])
  }

  /**
   * The safe name is the stripped window of the original name with its
   * characters cleaned: nothing inside the window is deleted or reordered.
   */
  lemma SafeFilenameIsCleanedWindow(name: string)
    ensures exists a, b :: CleanedWindow(name, SafeFilename(name), a, b)
  {
    var replaced := ReplaceForbidden(name);
    var a := KeptStart(replaced, 0);
    var b := KeptEnd(replaced, a, |replaced|);
    KeptWindow(replaced);
    SafeFilenameUnfold(name);
    CleanedWindowOfReplaced(name, a, b);
  }

  /** The indices where stripping stops bound the window it keeps. */
  lemma KeptWindow(s: string)
    ensures var a := KeptStart(s, 0);
      StrippedWindow(s, a, KeptEnd(s, a, |s|))
  {
  }

  lemma SafeFilenameUnfold(name: string)
    ensures var replaced := ReplaceForbidden(name);
      var a := KeptStart(replaced, 0);
      SafeFilename(name) == ReplaceSpaces(replaced[a..KeptEnd(replaced, a, |replaced|)])
  {
  }

  /** Cleaning the kept window of the replaced name character by character. */
  lemma CleanedWindowOfReplaced(name: string, a: int, b: int)
    requires StrippedWindow(ReplaceForbidden(name), a, b)
    ensures CleanedWindow(name, ReplaceSpaces(ReplaceForbidden(name)[a..b]), a, b)
  {
    ReplaceForbiddenKeepsWindow(name, a, b);
    var replaced := ReplaceForbidden(name);
    var stripped := replaced[a..b];
    var r := ReplaceSpaces(stripped);
    forall i | 0 <= i < b - a
      ensures r[i] == CleanChar(name[a + i])
    {
      assert stripped[i] == replaced[a + i];
    }
  }

  /** The stripping window is unique: it is determined by the name alone. */
  lemma StrippedWindowUnique(s: string, a: int, b: int, a': int, b': int)
    requires StrippedWindow(s, a, b) && StrippedWindow(s, a', b')
    requires a < b && a' < b'
    ensures a == a' && b == b'
  {
  }

  lemma ReplaceForbiddenIdentity(s: string)
    requires forall i :: 0 <= i < |s| ==> !IsForbidden(s[i])
    ensures ReplaceForbidden(s) == s
  {
  }

  lemma ReplaceSpacesIdentity(s: string)
    requires forall i :: 0 <= i < |s| ==> s[i] != ' '
    ensures ReplaceSpaces(s) == s
  {
  }

  lemma StripEdgesIdentity(s: string)
    requires |s| > 0 ==> !IsEdgeChar(s[0]) && !IsEdgeChar(s[|s| - 1])
    ensures StripEdges(s) == s
  {
    assert s[0..] == s;
  }

  /** Sanitising a sanitised name changes nothing. */
  lemma SafeFilenameIdempotent(name: string)
    ensures SafeFilename(SafeFilename(name)) == SafeFilename(name)
  {
    var r := SafeFilename(name);
    ReplaceForbiddenIdentity(r);
    StripEdgesIdentity(r);
    ReplaceSpacesIdentity(r);
  }

  /** Forbidden characters leave an underscore behind, even at the end of the name. */
  lemma SafeFilenameReplacesForbidden()
    ensures SafeFilename("A/B: C*") == "A_B__C_"
  {
    var replaced := "A_B_ C_";
    ReplaceForbiddenOfExample();
    StripEdgesIdentity(replaced);
    ReplaceSpacesOfExample();
    assert SafeFilename("A/B: C*") == ReplaceSpaces(StripEdges(replaced));
  }

  lemma ReplaceForbiddenOfExample()
    ensures ReplaceForbidden("A/B: C*") == "A_B_ C_"
  {
    var replaced := ReplaceForbidden("A/B: C*");
    assert replaced[0] == 'A' && replaced[1] == '_' && replaced[2] == 'B' && replaced[3] == '_';
    assert replaced[4] == ' ' && replaced[5] == 'C' && replaced[6] == '_';
  }

  lemma ReplaceSpacesOfExample()
    ensures ReplaceSpaces("A_B_ C_") == "A_B__C_"
  {
    var r := ReplaceSpaces("A_B_ C_");
    assert r[0] == 'A' && r[1] == '_' && r[2] == 'B' && r[3] == '_';
    assert r[4] == '_' && r[5] == 'C' && r[6] == '_';
  }

  /** Only spaces and dots are stripped from the ends. */
  lemma SafeFilenameStripsEdges()
    ensures SafeFilename(" .x. ") == "x"
  {
    ReplaceForbiddenOfEdges();
    StripEdgesOfExample();
    ReplaceSpacesIdentity("x");
    assert SafeFilename(" .x. ") == ReplaceSpaces(StripEdges(" .x. "));
  }

  lemma ReplaceForbiddenOfEdges()
    ensures ReplaceForbidden(" .x. ") == " .x. "
  {
    var name := " .x. ";
    assert name[0] == ' ' && name[1] == '.' && name[2] == 'x' && name[3] == '.' && name[4] == ' ';
    ReplaceForbiddenIdentity(name);
  }

  lemma StripEdgesOfExample()
    ensures StripEdges(" .x. ") == "x"
  {
    var name := " .x. ";
    assert name[0] == ' ' && name[1] == '.' && name[2] == 'x' && name[3] == '.' && name[4] == ' ';
    assert KeptStart(name, 0) == KeptStart(name, 1) == KeptStart(name, 2) == 2;
    assert KeptEnd(name, 2, 5) == KeptEnd(name, 2, 4) == KeptEnd(name, 2, 3) == 3;
    assert name[2..3] == "x";
  }

  /** Different names can share a safe name. */
  lemma SafeFilenameCollides()
    ensures SafeFilename("A/B") == "A_B"
    ensures SafeFilename("A:B") == "A_B"
  {
    assert ReplaceForbidden("A/B") == "A_B";
    assert ReplaceForbidden("A:B") == "A_B";
    StripEdgesIdentity("A_B");
    ReplaceSpacesIdentity("A_B");
  }
}

=== FILE: wrappers.dfy ===
/** Failure-carrying values shared by the whole model. */
module Wrappers {

  /** A value that may be absent: a missing dictionary key, a failed fetch. */
  datatype Option<+T> = None | Some(value: T) {

    /** The carried value, or `default` when there is none (Python's `dict.get(key, default)`). */
    function GetOr(default: T): (r: T)
      ensures Some? ==> r == value
      ensures None? ==> r == default
    {
      match this
      case Some(v) => v
      case None => default
    }
  }

  /** Either a computed value or the error that stopped the computation. */
  datatype Result<+R, +E> = Success(value: R) | Failure(error: E)
}
